=== FILE: README.md ===
# Crypto-weather dashboard: alert engine and store transitions

This project models the alert-and-refresh logic of the crypto/weather
dashboard:

- the alert service in `src/services/websocket.ts`: its start/stop
  lifecycle, the refresh tick, the one-minute weather gate, the shared
  five-minute cooldown ledger, the price rule and the two weather rule
  families;
- the crypto part of the store (`cryptoSlice.ts`): the simulated price
  walk, exponential smoothing of the 24-hour change, the mock history,
  the fallback coins and the reducers;
- the weather part of the store (`weatherSlice.ts`): per-city readings,
  forecasts, and the per-city record of the last weather alert;
- the favourites part of the store (`favoritesSlice.ts`): two lists with
  set-like insertion, removal from both lists, and wholesale replacement.

Everything is a pure function over immutable datatypes:

- `Date.now()` becomes an integer parameter (`now`, in milliseconds).
- Each `Math.random()` call becomes a draw `r` with `0 <= r < 1`.
- Notification permission becomes a boolean.
- The enumeration order of the coin and city maps (`Object.entries`)
  becomes an explicit sequence of keys.

Prices, percentages and temperatures are Dafny `real`s.

Modules:

| module | file | models |
|---|---|---|
| `Common` | common.dfy | `Option`, `Distinct`, `Abs`, the `message \|\| default` idiom, ASCII case mapping |
| `CryptoSlice` | crypto_slice.dfy | the coin store, random walk, smoothing, mock history, fallback coins and reducers |
| `WeatherSlice` | weather_slice.dfy | the city store, forecasts and the alert-record reducer |
| `FavoritesSlice` | favorites_slice.dfy | the favourites lists |
| `AlertRules` | alert_rules.dfy | the cooldown ledger, the price rule, the weather rules, and the price and weather checks |
| `AlertService` | alert_service.dfy | `connect`, `disconnect`, timer ticks, and `updateData` wired to both stores |

For both checks, the model has two definitions:

- the check as written, which visits keys in order, each against the
  ledger the earlier keys left (`CheckCoins`, `CheckWeather`);
- a reference definition, which judges every key against the ledger as it
  was before the check (`FiredCoins`/`PriceRecords`,
  `ReferenceKeys`/`ReferenceRecords`).

Lemmas prove the two agree when every key is visited once.

### Behaviour of the code worth knowing

- **Weather gate.** The gate is strict: `now - lastWeatherCheck > 60000`, as in
  websocket.ts:44.
- **A stored time of 0.** The cooldown test is
  `!lastAlerts[key] || now - lastAlerts[key] > cooldown`. A stored time of 0 is
  falsy, so a key stamped at time 0 is treated as never stamped (`AlertRules.Ready`).
  The strict-cooldown lemmas therefore need a positive stamping time.
- **An empty `weather` array.** A city whose `weather` array is empty, while
  `main` is present, makes `data.weather[0].id` throw. The throw ends the
  whole weather check: cities visited before it keep their stamps, and the
  rest are not visited (`AlertRules.Crashes`). `lastWeatherCheck` has already
  been set by then. The price half of the tick still runs.
- **Gates as predicates.** The cooldown gate is `AlertRules.Ready`
  (websocket.ts:60, 100-120), the one-minute weather gate is
  `AlertService.WeatherDue` (websocket.ts:44), and a weather rule's
  condition without its cooldown is `AlertRules.Meets` (websocket.ts:100-120).
  Their consequences are stated by `ReadyAfterStamp`, `CooldownIsStrict`,
  `WeatherCooldownIsStrict`, `WeatherPhase` and `WeatherChecksSpaced`.
- **Source expressions as helpers.** These members are the source's
  expressions themselves. Their consequences are stated by the lemmas named
  with them.
  - `AlertRules.PriceFires` is the price rule (websocket.ts:59-60):
    `Math.abs(change) >= 2.0` and the coin's key out of cooldown
    (`PriceAlertFiresIff`, `CooldownIsStrict`).
  - `AlertRules.Suffix` and `AlertRules.CityKey` build the ledger keys
    `city-temp-high`, `city-temp-low`, `city-thunderstorm`, `city-rain` and
    `city-snow` (websocket.ts:100-120; `CityKeyInjective`,
    `SharedLedgerCollision`).
  - `AlertRules.Skips` is the skip of a city missing its `weather` or `main`
    block (websocket.ts:92; `CheckCity`, `WeatherAlertFiresIff`).
  - `CryptoSlice.Interval` is the mock history's point spacing: an hour up
    to one day, else a day (cryptoSlice.ts:62; `GenerateMockHistory`).
  - `CryptoSlice.Advance` is one coin's refresh inside `updateCryptoPrices`
    (cryptoSlice.ts:235-251; `PriceUpdates`).
  - `Common.MessageOr` with `CryptoSlice.DefaultError` and
    `WeatherSlice.DefaultError` is `action.error.message || '…'`
    (cryptoSlice.ts:294, 307; weatherSlice.ts:114, 130; the two
    `FetchRejected` reducers).
  - `AlertService.InitialService` is the service's field initialisers
    (websocket.ts:8-14; `FirstUpdateChecksWeather`, `FreshStartIsQuiet`).
- **Price smoothing.** Every refresh applies the 0.95/0.05 smoothing to every
  coin, so the 24-hour change is an exponential average of the simulated
  steps.

## Model

| member | source | states |
|---|---|---|
| Common.ToLower | src/store/slices/favoritesSlice.ts:21 | lower-casing keeps the length and maps each character on its own |
| Common.ToUpper | src/store/slices/cryptoSlice.ts:129 | upper-casing keeps the length and maps each character on its own |
| Common.Abs | src/services/websocket.ts:59 | the magnitude of a change is non-negative and equals the change or its negation |
| CryptoSlice.DrawPercent | src/store/slices/cryptoSlice.ts:53 | a draw in [0, 1) moves the price by a percentage in [-2, 2) |
| CryptoSlice.SimulatePriceUpdate | src/store/slices/cryptoSlice.ts:51-55 | for a positive price and a draw in [0, 1), the new price is in [0.98p, 1.02p) |
| CryptoSlice.SimulatedPercentIsDrawPercent | src/store/slices/cryptoSlice.ts:237-239 | the percentage change the refresh computes from old and new price is exactly the drawn percentage |
| CryptoSlice.Smooth | src/store/slices/cryptoSlice.ts:248-249 | the smoothed change lies between the old change and the instantaneous one |
| CryptoSlice.SmoothingExample | src/store/slices/cryptoSlice.ts:248-249 | a change of 5 followed by a move from 100 to 102 smooths to 4.85 |
| CryptoSlice.SmoothStaysBelowThreshold | src/store/slices/cryptoSlice.ts:248-249 | smoothing with a step in [-2, 2) keeps a change below 2 in size below 2, and grows a larger one by at most 0.1 beyond 0.95 of it |
| CryptoSlice.PriceUpdates | src/store/slices/cryptoSlice.ts:234-253 | the payload has exactly the store's coin ids; each coin differs only in price, which is the walk's step from the old price (within 2% of it), and in change, which is 0.95·old change + 0.05·(new − old)/old·100, the step's drawn percentage |
| CryptoSlice.UpdateCryptoPricesFulfilled | src/store/slices/cryptoSlice.ts:309-314 | payload ids are overwritten and every other coin and field is unchanged |
| CryptoSlice.RefreshKeepsCoins | src/store/slices/cryptoSlice.ts:234-253 | a refresh keeps the set of coins and keeps every price positive |
| CryptoSlice.RefreshStaysQuiet | src/store/slices/cryptoSlice.ts:234-253 | a refresh never lifts a change below the alert threshold up to it |
| CryptoSlice.UpdateCryptoPrice | src/store/slices/cryptoSlice.ts:263-273 | an unknown id leaves the state unchanged; a known one takes the new price and the change old·0.95 + ((p'−p)/p·100)·0.05, with every other field and coin unchanged |
| CryptoSlice.TriggerPriceAlert | src/store/slices/cryptoSlice.ts:275-279 | the alert time of the id becomes now; other ids and the other fields are unchanged |
| CryptoSlice.FetchPending | src/store/slices/cryptoSlice.ts:283-299 | loading is set and the error cleared, the data untouched |
| CryptoSlice.FetchRejected | src/store/slices/cryptoSlice.ts:292-308 | loading ends and the error is the message, or the request's default when the message is absent or empty |
| CryptoSlice.FetchCryptoDataFulfilled | src/store/slices/cryptoSlice.ts:287-291 | the coin map is replaced wholesale, loading ends, the error is cleared |
| CryptoSlice.FetchCryptoHistoryFulfilled | src/store/slices/cryptoSlice.ts:300-304 | the history of one id is written and the others are unchanged |
| CryptoSlice.PointCount | src/store/slices/cryptoSlice.ts:61 | 24 points for a chart of at most one day, otherwise one per day |
| CryptoSlice.GenerateMockHistory | src/store/slices/cryptoSlice.ts:58-82 | three series of the point count; the timestamps sit on a regular grid, now − (n − i)·interval, shared by the three series, rising by one interval and ending at now − interval; each price is positive and within 2% of the one before |
| CryptoSlice.BasePrice | src/store/slices/cryptoSlice.ts:153-157 | the fallback base prices are 36000 for bitcoin, 2400 for ethereum and 145 for solana, all positive |
| CryptoSlice.Capitalize | src/store/slices/cryptoSlice.ts:165 | the first character is upper-cased and the rest kept |
| CryptoSlice.Symbol | src/store/slices/cryptoSlice.ts:166 | the symbol is the first three characters (fewer for a shorter id), upper-cased |
| CryptoSlice.FallbackCoin | src/store/slices/cryptoSlice.ts:159-182 | the fallback coin's name, symbol and price come from its id; cap, volume and supply are price·1e9, price·1e7 and price·1e6; the change is in [-5, 5) |
| CryptoSlice.FallbackCoins | src/store/slices/cryptoSlice.ts:151-184 | the fallback map has exactly the three tracked ids, each keyed by its own id, all with positive prices |
| CryptoSlice.FallbackNames | src/store/slices/cryptoSlice.ts:153-182 | Bitcoin/BIT, Ethereum/ETH and Solana/SOL; bitcoin's cap is 36000·1e9 |
| CryptoSlice.HistoryBasePrice | src/store/slices/cryptoSlice.ts:213-217 | the mock history starts from a non-zero price: the coin's own when known and non-zero, otherwise the per-id default |
| CryptoSlice.CoinOfRow | src/store/slices/cryptoSlice.ts:126-144 | a response row keeps its id, name, image, price, market cap, volume and supply, upper-cases its symbol, and reads a missing change as 0 |
| CryptoSlice.CoinsFromMarkets | src/store/slices/cryptoSlice.ts:114-145 | the coin map has exactly the ids of the response rows, each keyed by its own id |
| CryptoSlice.LastRowWins | src/store/slices/cryptoSlice.ts:115-126 | when an id repeats, the last row carrying it is the one stored |
| WeatherSlice.TriggerWeatherAlert | src/store/slices/weatherSlice.ts:93-98 | the city's record becomes (type, now); other cities and the other fields are unchanged |
| WeatherSlice.LaterAlertOverwrites | src/store/slices/weatherSlice.ts:95 | records are keyed by city alone: a second alert hides the first, whatever the types |
| WeatherSlice.FetchPending | src/store/slices/weatherSlice.ts:103-119 | loading is set and the error cleared, the data untouched |
| WeatherSlice.FetchRejected | src/store/slices/weatherSlice.ts:112-131 | loading ends and the error is the message or the request's default; the cities are unchanged |
| WeatherSlice.FetchWeatherFulfilled | src/store/slices/weatherSlice.ts:107-111 | the city's data is written as received, other cities unchanged, loading off, error cleared |
| WeatherSlice.FetchForecastFulfilled | src/store/slices/weatherSlice.ts:120-127 | a forecast is attached only to a city already present; an absent city leaves the map unchanged |
| WeatherSlice.ForecastNeedsReading | src/store/slices/weatherSlice.ts:107-127 | a forecast never creates a city, and the next reading replaces the city's data |
| FavoritesSlice.FirstFavorite | src/store/slices/favoritesSlice.ts:8-27 | the initial lists are empty and duplicate-free, and the first favourite goes alone into the list its classification picks |
| FavoritesSlice.AddToFavorites | src/store/slices/favoritesSlice.ts:17-27 | an item already in either list changes nothing; a new one is appended to cities when it is a known city and to cryptos otherwise; it is contained afterwards |
| FavoritesSlice.Without | src/store/slices/favoritesSlice.ts:30-31 | the filter drops the item, keeps only elements of the input, and keeps every other element |
| FavoritesSlice.RemoveFromFavorites | src/store/slices/favoritesSlice.ts:28-32 | the item is in neither list afterwards, and every other item is contained exactly when it was before |
| FavoritesSlice.SetFavorites | src/store/slices/favoritesSlice.ts:33-36 | both lists are replaced by the payload's |
| FavoritesSlice.WithoutKeepsOthers | src/store/slices/favoritesSlice.ts:30-31 | the filter keeps the other elements in order and with their multiplicity |
| FavoritesSlice.WithoutAbsent | src/store/slices/favoritesSlice.ts:30-31 | filtering an absent item changes nothing |
| FavoritesSlice.WithoutAppended | src/store/slices/favoritesSlice.ts:22-31 | appending a fresh item and filtering it out gives back the list |
| FavoritesSlice.RemovePreservesOrder | src/store/slices/favoritesSlice.ts:28-32 | removal keeps every other entry of both lists, in order and with its multiplicity |
| FavoritesSlice.RemoveIdempotent | src/store/slices/favoritesSlice.ts:28-32 | removing twice is removing once, and removing an absent item is a no-op |
| FavoritesSlice.AddThenRemove | src/store/slices/favoritesSlice.ts:17-32 | adding a fresh item and then removing it restores the favourites |
| FavoritesSlice.AddKeepsNoDuplicates | src/store/slices/favoritesSlice.ts:17-27 | if no string occurs twice across the two lists, adding keeps it so |
| FavoritesSlice.AddClassifies | src/store/slices/favoritesSlice.ts:21-25 | a new item lands in cities iff its lower-case form is "new york", "london" or "tokyo", otherwise in cryptos |
| FavoritesSlice.ClassificationIgnoresCase | src/store/slices/favoritesSlice.ts:21 | "London", "LONDON" and "New York" are cities; "Bitcoin" is not |
| FavoritesSlice.SetKeepsDuplicates | src/store/slices/favoritesSlice.ts:33-36 | a wholesale set can leave the same item in both lists |
| AlertRules.GrowsTransitive | src/services/websocket.ts:11 | ledger growth composes across checks |
| AlertRules.Stamp | src/services/websocket.ts:62 | stamped keys take now; every other key is kept as it was |
| AlertRules.StampTwice | src/services/websocket.ts:62 | two stamps at the same time are one stamp of both key sets |
| AlertRules.ReadyAfterStamp | src/services/websocket.ts:60 | after a stamp at t0, the gate is open exactly when t0 is 0 or more than 300000 ms have passed |
| AlertRules.DirectionOf | src/services/websocket.ts:66 | a price notification says "up" exactly when the change is positive |
| AlertRules.CheckCoin | src/services/websocket.ts:55-82 | a coin fires iff its change is at least 2.0 in size and its key is out of cooldown; firing stamps its id with now and records (id, price, change); otherwise nothing changes; a notification is shown only with permission |
| AlertRules.CheckCoins | src/services/websocket.ts:50-84 | the price check only grows the ledger with now-stamps, shows notifications exactly when permitted, one per record, and records price alerts of visited coins only |
| AlertRules.FiredCoins | src/services/websocket.ts:55-62 | an id fires in the reference iff it is visited, present, and its rule holds against the old ledger |
| AlertRules.FiredCoinsAgree | src/services/websocket.ts:60 | the price rule reads only the ledger entries of the coins themselves |
| AlertRules.CheckCoinsLedger | src/services/websocket.ts:55-62 | with each coin visited once, the new ledger is the old one with exactly the firing coins stamped |
| AlertRules.CheckCoinsRecords | src/services/websocket.ts:55-79 | with each coin visited once, the records are those of the firing coins, in visiting order |
| AlertRules.PriceAlertFiresIff | src/services/websocket.ts:59-62 | per coin: a record iff its rule holds; its entry becomes now iff it fires and is otherwise untouched |
| AlertRules.OneRecordPerCoin | src/services/websocket.ts:55-79 | no coin yields two records in one check |
| AlertRules.CooldownIsStrict | src/services/websocket.ts:60 | after a fire at t0 > 0, the coin cannot fire while now − t0 <= 300000, and fires at t0 + 300001 if its change still meets the threshold |
| AlertRules.PriceRecordsIgnorePermission | src/services/websocket.ts:65-79 | the ledger and the records of the price check do not depend on notification permission |
| AlertRules.QuietCoinsNeverFire | src/services/websocket.ts:59 | a check over coins all below the threshold changes nothing and records nothing |
| AlertRules.TempAlert | src/services/websocket.ts:100-107 | heat iff temp > 35 and its key is ready; freezing iff temp < 0 and its key is ready (heat has priority) |
| AlertRules.ConditionAlert | src/services/websocket.ts:110-124 | no alert without a code; thunderstorm for [200,300), rain for [500,600), snow for [600,700), each iff its key is ready |
| AlertRules.CityKeyInjective | src/services/websocket.ts:100-122 | distinct city/rule pairs never share a ledger key |
| AlertRules.Decide | src/services/websocket.ts:100-124 | at most two rules fire per city, a temperature rule before a condition rule, each with its key ready |
| AlertRules.DecideIff | src/services/websocket.ts:100-124 | a rule fires for a city iff its condition holds (heat > 35, freezing < 0, or the code in its range) and its key is out of cooldown |
| AlertRules.WeatherRecords | src/services/websocket.ts:138-141 | one record per fired rule, carrying the city and the rule |
| AlertRules.WeatherNotices | src/services/websocket.ts:128-135 | one notification per record, in order |
| AlertRules.StampOptions | src/services/websocket.ts:101-122 | the two families' successive stamps are one stamp of their keys |
| AlertRules.EvaluateCity | src/services/websocket.ts:95-124 | the city's ledger keys of the fired rules are stamped with now and their records made, the condition family judged as if the temperature family had not stamped |
| AlertRules.CheckCity | src/services/websocket.ts:91-124 | a city lacking weather or main is skipped; an empty weather array crashes; otherwise its fired rules are stamped and recorded |
| AlertRules.CityFamiliesIndependent | src/services/websocket.ts:100-124 | stamping a temperature key never changes the condition family's decision |
| AlertRules.AnyCrashUnfold | src/services/websocket.ts:91-96 | a crash lies ahead iff the first visited city crashes or one of the rest does |
| AlertRules.AnnouncesConcat | src/services/websocket.ts:65-79 | notification lists of successive checks still match their records one to one |
| AlertRules.CheckWeather | src/services/websocket.ts:86-126 | the weather check only grows the ledger with now-stamps, shows notifications exactly when permitted, and aborts iff some visited city crashes |
| AlertRules.ReferenceAgree | src/services/websocket.ts:100-124 | the weather rules read only the ledger keys of the cities themselves |
| AlertRules.StampOtherCity | src/services/websocket.ts:100-122 | stamping one city's keys leaves every other city's keys alone |
| AlertRules.CheckWeatherLedger | src/services/websocket.ts:91-124 | with each city visited once and no crash, the new ledger is the old one with exactly the fired rules' keys stamped |
| AlertRules.CheckWeatherRecords | src/services/websocket.ts:91-124 | with each city visited once and no crash, the records are the fired rules', in visiting order |
| AlertRules.ReferenceRecordsIff | src/services/websocket.ts:91-124 | the reference holds a city/rule alert iff the city is visited, has both blocks and a non-empty weather array, and the rule holds against the old ledger |
| AlertRules.WeatherAlertFiresIff | src/services/websocket.ts:91-124 | with each city visited once and no crash, the weather check records a city/rule alert iff the city has both blocks and the rule holds against the ledger as it was before the check |
| AlertRules.BothFamiliesFire | src/services/websocket.ts:100-124 | at 40 degrees with code 201 both heat and thunderstorm fire; with code 800 only heat does |
| AlertRules.WeatherCooldownIsStrict | src/services/websocket.ts:100-122 | a weather rule that fired for a city at t0 > 0 cannot fire for it while now − t0 <= 300000, and fires again at t0 + 300001 if the later reading still meets its condition |
| AlertRules.SharedLedgerCollision | src/services/websocket.ts:11 | the ledger is shared: a coin with id "london-rain" silences London's rain rule |
| AlertRules.CrashKeepsPrefix | src/services/websocket.ts:91-96 | a crashing city ends the check: the result is that of the cities before it, marked aborted |
| AlertRules.CrashIgnoresRest | src/services/websocket.ts:91-96 | the cities after a crashing one do not affect the check |
| AlertRules.WeatherRecordsIgnorePermission | src/services/websocket.ts:128-141 | the ledger, records and abort of the weather check do not depend on notification permission |
| AlertRules.WeatherCheckRecordsWeather | src/services/websocket.ts:91-141 | the weather check records weather alerts only, each for a visited city |
| AlertRules.NoCitiesNoWeatherCheck | src/services/websocket.ts:88-92 | with no city loaded the weather check leaves the ledger alone and records nothing |
| AlertService.RecordWeatherAlerts | src/services/websocket.ts:138-141 | recording keeps the cities and flags, adds a record for exactly the alerted cities, and leaves cities without alerts untouched |
| AlertService.LastWeatherAlertWins | src/store/slices/weatherSlice.ts:93-98 | the store keeps, per city, the type of the last weather alert recorded for it |
| AlertService.RecordPriceAlerts | src/services/websocket.ts:75-79 | every alerted id's time becomes now, every other id keeps its time, and the coins and other fields are unchanged |
| AlertService.WeatherPhase | src/services/websocket.ts:43-47 | the weather check runs iff now − lastWeatherCheck > 60000; then lastWeatherCheck becomes now, and the ledger, records, notices, abort flag and store are those of the weather check on the old ledger, with its alerts recorded in the store; otherwise nothing changes; only weather alerts of visited cities are recorded |
| AlertService.PricePhase | src/services/websocket.ts:34-37 | the coins become the refreshed ones; the ledger, records and notices are those of the price check on the refreshed coins; each alerted id's alert time becomes priceNow and every other id's is kept; history, loading and error are kept; it reports no weather check and no abort |
| AlertService.UpdateData | src/services/websocket.ts:32-48 | one tick is the weather half followed by the price half on its result: the final state is the price half's, the records and notices are the weather half's followed by the price half's; the weather gate iff, lastWeatherCheck set exactly when it runs, the ledger only grows with the tick's times |
| AlertService.PricePhaseFiresIff | src/services/websocket.ts:34-79 | per coin in the price half: the refreshed price is the walk's step; the coin records an alert iff its new change is at least 2 in size and its key is out of cooldown; then its key and its store alert time become priceNow |
| AlertService.TickPriceAlertFiresIff | src/services/websocket.ts:32-79 | per coin in one tick: the refreshed price is the walk's step; the coin records an alert iff its new change is at least 2 in size and its key is out of cooldown in the ledger the weather half left; then its key and its store alert time become priceNow |
| AlertService.TickWeatherAlertFiresIff | src/services/websocket.ts:42-124 | per city and rule in one tick without a crash: an alert is recorded iff the check is due, the city is visited with both blocks, and the rule holds against the ledger the tick started with |
| AlertService.Connect | src/services/websocket.ts:16-30 | connecting while running changes nothing; otherwise it is exactly one `UpdateData` on the dashboard with the service started |
| AlertService.Disconnect | src/services/websocket.ts:152-158 | the timer is cleared and nothing else changes; a no-op when stopped |
| AlertService.TimerFires | src/services/websocket.ts:24-26 | while stopped a firing does nothing; while running it is exactly one `UpdateData`: the weather gate iff, lastWeatherCheck, ledger growth, coin set, positive prices and cities as for it |
| AlertService.ConnectIdempotent | src/services/websocket.ts:16-19 | a second connect is a no-op |
| AlertService.DisconnectThenConnect | src/services/websocket.ts:152-158 | after disconnect no tick runs, a second disconnect is a no-op, and connect starts again with an immediate update |
| AlertService.FirstUpdateChecksWeather | src/services/websocket.ts:13-14 | a fresh service checks the weather on its first update once now > 60000 |
| AlertService.FreshStartIsQuiet | src/store/slices/cryptoSlice.ts:40-46 | connecting on the initial store (no coins, no cities, empty ledger) raises no alert, keeps the ledger empty and the store unchanged, and notes the weather check time once now > 60000 |
| AlertService.WeatherChecksSpaced | src/services/websocket.ts:44-45 | after a weather check at now, a tick at most a minute later skips the weather |
| AlertService.TickIgnoresPermission | src/services/websocket.ts:65-79 | the whole state after a tick, and its records, do not depend on notification permission |
| AlertService.QuietMarketStaysQuiet | src/services/websocket.ts:32-37 | while every change is below the threshold, a tick raises no price alert, leaves the alert times alone, and keeps every change below it |
| AlertService.StoreKeepsConditionOverHeat | src/store/slices/weatherSlice.ts:95-98 | when heat and a thunderstorm fire together, the store keeps "thunderstorm" |

## Left out

- HTTP requests (`axios` in `fetchCryptoData`, `fetchCryptoHistory`,
  `fetchWeatherData`, `fetchForecast`): the model starts from their payloads.
  The markets response is `CryptoSlice.CoinsFromMarkets`, and the request's
  failure path is `CryptoSlice.FallbackCoins`.
- The browser Notification API and `requestNotificationPermission`: reduced to
  a permission flag and a list of notices. Message text, `toFixed` and
  `Math.round` formatting, and the icon paths are not modelled.
- Console logging: it has no effect on state.
- `setInterval`/`clearInterval` and the promise chain: the timer is the
  `running` flag and each tick is an explicit call, so the 10-second period
  (websocket.ts:9) is not a constant of the model. The price check runs after
  the weather check within a tick, at its own time `priceNow`. A rejected price
  refresh is not modelled, because the simulated refresh cannot fail.
- The alert service's two clock reads for the weather half: the gate's
  `Date.now()` (websocket.ts:43) and the weather check's own
  (websocket.ts:89) are one value, `TickInput.now`, since nothing runs
  between them.
- The reducers' own `Date.now()` calls: they take the same `now` the alert
  service used, since both read the same clock within one synchronous step.
- IEEE-754 floating point: quantities are exact reals, so there is no NaN or
  Infinity. The refresh requires positive prices, so its division by the old
  price is defined. `updateCryptoPrice` (cryptoSlice.ts:270) requires a
  non-zero old price. In the source an old price of 0 gives a percentage of
  ±Infinity when the new price is non-zero, and NaN only when it is 0 too.
  An infinite change would then pass the threshold test at websocket.ts:59
  and fire a price alert. The model does not cover that case.
- CryptoSlice.UpdateCryptoPrice: requires a non-zero old price for a known
  coin, so the infinite and NaN changes described above are outside its
  contract.
- CryptoSlice.GenerateMockHistory: the `days` argument is an integer. The
  volume and market-cap series are computed but only their timestamps are
  specified.
- Common.ToLower: maps ASCII letters and the Kelvin sign only; full Unicode
  lower-casing is not modelled.
- Common.ToUpper: maps ASCII letters only; full Unicode upper-casing is not
  modelled.
- Wind, `sys` and the other display-only fields of a weather reading.
- A falsy `data` entry in the city map (websocket.ts:92): every city in the
  model has a reading.
- The news slice, the React components and the store/Next configuration: they
  are outside the alert and store logic.

=== FILE: alert_rules.dfy ===
/** The alert rules of the alert service: the shared cooldown ledger, the
    price rule and the two weather rule families, and the checks that walk
    every coin or city of the store.

    A check returns the new ledger, the alert records it hands to the store
    (always) and the browser notifications it shows (only when notification
    permission is granted). Time is the parameter `now`, in milliseconds. */
module AlertRules {
  import opened Common
  import CryptoSlice
  import WeatherSlice

  /** `lastAlerts`: alert key to the time it last fired. One ledger serves
      price keys (the coin id) and weather keys (city plus a suffix). */
  type Ledger = map<string, int>

  const AlertThreshold: real := 2.0
  const AlertCooldown: int := 300000

  /** The cooldown gate `!lastAlerts[key] || now - lastAlerts[key] > cooldown`.
      A stored time of 0 is falsy and so counts as no entry at all. */
  predicate Ready(ledger: Ledger, key: string, now: int) {
    key !in ledger || ledger[key] == 0 || now - ledger[key] > AlertCooldown
  }

  /** `after` keeps every key of `before`, and every entry of `after` is
      either the one `before` had or one of the stamping times. */
  predicate Grows(before: Ledger, after: Ledger, times: set<int>) {
    && before.Keys <= after.Keys
    && forall k | k in after :: after[k] in times || (k in before && after[k] == before[k])
  }

  lemma GrowsTransitive(a: Ledger, b: Ledger, c: Ledger, t1: set<int>, t2: set<int>)
    requires Grows(a, b, t1) && Grows(b, c, t2)
    ensures Grows(a, c, t1 + t2)
  {
  }

  /** The ledger with every key of `keys` stamped with `now`. */
  function Stamp(ledger: Ledger, keys: set<string>, now: int): (r: Ledger)
    ensures r.Keys == ledger.Keys + keys
    ensures forall k | k in keys :: r[k] == now
    ensures forall k | k in ledger && k !in keys :: r[k] == ledger[k]
  {
    map k | k in ledger.Keys + keys :: if k in keys then now else ledger[k]
  }

  lemma StampTwice(ledger: Ledger, a: set<string>, b: set<string>, now: int)
    ensures Stamp(Stamp(ledger, a, now), b, now) == Stamp(ledger, a + b, now)
  {
  }

  /** The two ledgers say the same about `key`. */
  predicate AgreeOn(l1: Ledger, l2: Ledger, key: string) {
    (key in l1 <==> key in l2) && (key in l1 ==> l1[key] == l2[key])
  }

  /** The gate after a stamp at `t0`: closed for exactly the cooldown window,
      unless `t0` is 0, which the gate does not see. */
  lemma ReadyAfterStamp(ledger: Ledger, key: string, t0: int, now: int)
    ensures Ready(ledger[key := t0], key, now) <==> t0 == 0 || now - t0 > AlertCooldown
  {
  }

  // ---------------------------------------------------------------------
  // Alerts
  // ---------------------------------------------------------------------

  datatype Direction = Up | Down

  /** The direction a price notification names: "up" exactly when the change is positive. */
  function DirectionOf(change: real): (d: Direction)
    ensures d == Up <==> change > 0.0
  {
    if change > 0.0 then Up else Down
  }

  datatype WeatherKind = ExtremeHeat | Freezing | Thunderstorm | Rain | Snow

  predicate IsTemperatureKind(k: WeatherKind) {
    k == ExtremeHeat || k == Freezing
  }

  /** The alert type handed to the store and used for the notification icon. */
  function Label(k: WeatherKind): string {
    match k
    case ExtremeHeat => "extreme-heat"
    case Freezing => "freezing"
    case Thunderstorm => "thunderstorm"
    case Rain => "rain"
    case Snow => "snow"
  }

  /** The ledger suffix of each weather rule. */
  function Suffix(k: WeatherKind): string {
    match k
    case ExtremeHeat => "-temp-high"
    case Freezing => "-temp-low"
    case Thunderstorm => "-thunderstorm"
    case Rain => "-rain"
    case Snow => "-snow"
  }

  /** The ledger key of a weather rule for a city. */
  function CityKey(city: string, k: WeatherKind): string {
    city + Suffix(k)
  }

  /** A record dispatched to the store: `triggerPriceAlert({id, price, priceChange})`
      or `triggerWeatherAlert({city, type})`. */
  datatype Alert = PriceAlert(id: string, price: real, change: real) | WeatherAlert(city: string, kind: WeatherKind)

  /** A browser notification: a coin's name, direction and size of change,
      or a city and the weather type. */
  datatype Notice = PriceNotice(name: string, direction: Direction, magnitude: real) | WeatherNotice(city: string, kind: WeatherKind)

  /** The notification that goes with a record. */
  predicate Matches(a: Alert, n: Notice) {
    match a
    case PriceAlert(_, _, change) => n.PriceNotice? && n.direction == DirectionOf(change) && n.magnitude == Abs(change)
    case WeatherAlert(city, kind) => n == WeatherNotice(city, kind)
  }

  /** One notification per record, in the same order. */
  predicate Announces(records: seq<Alert>, notices: seq<Notice>) {
    |records| == |notices| && forall i | 0 <= i < |records| :: Matches(records[i], notices[i])
  }

  /** What a check leaves behind. */
  datatype Check = Check(ledger: Ledger, records: seq<Alert>, notices: seq<Notice>)

  /** Notices go out exactly when permission is granted, one per record. */
  predicate NoticesFollowPermission(c: Check, permitted: bool) {
    if permitted then Announces(c.records, c.notices) else c.notices == []
  }

  // ---------------------------------------------------------------------
  // The price rule
  // ---------------------------------------------------------------------

  /** A coin's alert fires when its change is at least the threshold in size
      and its key is out of cooldown. */
  predicate PriceFires(ledger: Ledger, id: string, coin: CryptoSlice.Coin, now: int) {
    Abs(coin.market.change24h) >= AlertThreshold && Ready(ledger, id, now)
  }

  function PriceRecord(id: string, coin: CryptoSlice.Coin): Alert {
    PriceAlert(id, coin.market.price, coin.market.change24h)
  }

  /** The rule for one coin of `checkForCryptoAlerts`. */
  function CheckCoin(ledger: Ledger, id: string, coin: CryptoSlice.Coin, now: int, permitted: bool): (c: Check)
    ensures PriceFires(ledger, id, coin, now) ==> c.ledger == ledger[id := now] && c.records == [PriceRecord(id, coin)]
    ensures !PriceFires(ledger, id, coin, now) ==> c.ledger == ledger && c.records == []
    ensures NoticesFollowPermission(c, permitted)
    ensures permitted && c.notices != [] ==> c.notices[0].name == coin.name
  {
    if PriceFires(ledger, id, coin, now) then
      var change := coin.market.change24h;
      Check(ledger[id := now], [PriceRecord(id, coin)],
            if permitted then [PriceNotice(coin.name, DirectionOf(change), Abs(change))] else [])
    else
      Check(ledger, [], [])
  }

  /** `checkForCryptoAlerts`: the coins visited in `order` (the enumeration
      order of the coin map), each against the ledger left by the ones before. */
  function CheckCoins(ledger: Ledger, coins: map<string, CryptoSlice.Coin>, order: seq<string>, now: int, permitted: bool): (c: Check)
    ensures Grows(ledger, c.ledger, {now})
    ensures NoticesFollowPermission(c, permitted)
    ensures forall i | 0 <= i < |c.records| :: c.records[i].PriceAlert? && c.records[i].id in order
    decreases |order|
  {
    if order == [] then Check(ledger, [], [])
    else if order[0] !in coins then CheckCoins(ledger, coins, order[1..], now, permitted)
    else
      var head := CheckCoin(ledger, order[0], coins[order[0]], now, permitted);
      var rest := CheckCoins(head.ledger, coins, order[1..], now, permitted);
      Check(rest.ledger, head.records + rest.records, head.notices + rest.notices)
  }

  /** Reference: the coins whose rule holds against the ledger as it was
      before the check, in visiting order. */
  function FiredCoins(ledger: Ledger, coins: map<string, CryptoSlice.Coin>, order: seq<string>, now: int): (ids: seq<string>)
    ensures forall id :: id in ids <==> id in order && id in coins && PriceFires(ledger, id, coins[id], now)
    ensures forall i | 0 <= i < |ids| :: ids[i] in coins
    ensures Distinct(order) ==> Distinct(ids)
    decreases |order|
  {
    if order == [] then []
    else
      var rest := FiredCoins(ledger, coins, order[1..], now);
      assert Distinct(order) ==> order[0] !in order[1..];
      if order[0] in coins && PriceFires(ledger, order[0], coins[order[0]], now) then [order[0]] + rest else rest
  }

  /** Reference: the record of each coin in `ids`, in order. */
  function PriceRecords(coins: map<string, CryptoSlice.Coin>, ids: seq<string>): (rs: seq<Alert>)
    requires forall i | 0 <= i < |ids| :: ids[i] in coins
    ensures |rs| == |ids|
    ensures forall i | 0 <= i < |ids| :: rs[i] == PriceRecord(ids[i], coins[ids[i]])
  {
    seq(|ids|, i requires 0 <= i < |ids| => PriceRecord(ids[i], coins[ids[i]]))
  }

  /** Ledgers that agree on every coin of `order` fire the same coins. */
  lemma {:induction false} FiredCoinsAgree(l1: Ledger, l2: Ledger, coins: map<string, CryptoSlice.Coin>, order: seq<string>, now: int)
    requires forall i | 0 <= i < |order| :: AgreeOn(l1, l2, order[i])
    ensures FiredCoins(l1, coins, order, now) == FiredCoins(l2, coins, order, now)
    decreases |order|
  {
    if order != [] {
      FiredCoinsAgree(l1, l2, coins, order[1..], now);
      assert AgreeOn(l1, l2, order[0]);
    }
  }

  /** The keys listed in a sequence. */
  function Elems(s: seq<string>): (r: set<string>)
    ensures forall x :: x in r <==> x in s
  {
    set x | x in s
  }

  lemma ElemsConcat(a: seq<string>, b: seq<string>)
    ensures Elems(a + b) == Elems(a) + Elems(b)
  {
  }

  lemma PriceRecordsConcat(coins: map<string, CryptoSlice.Coin>, a: seq<string>, b: seq<string>)
    requires forall i | 0 <= i < |a| :: a[i] in coins
    requires forall i | 0 <= i < |b| :: b[i] in coins
    ensures PriceRecords(coins, a + b) == PriceRecords(coins, a) + PriceRecords(coins, b)
  {
  }

  /** One coin's rule, stated as a stamp. */
  lemma CheckCoinStamps(ledger: Ledger, id: string, coin: CryptoSlice.Coin, now: int, permitted: bool)
    ensures var fired: seq<string> := if PriceFires(ledger, id, coin, now) then [id] else [];
      CheckCoin(ledger, id, coin, now, permitted).ledger == Stamp(ledger, Elems(fired), now)
  {
  }

  /** The price check decided coin by coin: the head coin against the old
      ledger, the rest against the ledger the head left. */
  lemma CheckCoinsUnfold(ledger: Ledger, coins: map<string, CryptoSlice.Coin>, order: seq<string>, now: int, permitted: bool)
    requires order != [] && order[0] in coins
    ensures var head := CheckCoin(ledger, order[0], coins[order[0]], now, permitted);
      var rest := CheckCoins(head.ledger, coins, order[1..], now, permitted);
      CheckCoins(ledger, coins, order, now, permitted) == Check(rest.ledger, head.records + rest.records, head.notices + rest.notices)
  {
  }

  /** The rest of the coins fire alike after the head coin's stamp. */
  lemma FiredAfterHead(ledger: Ledger, coins: map<string, CryptoSlice.Coin>, order: seq<string>, now: int, permitted: bool)
    requires Distinct(order) && order != [] && order[0] in coins
    ensures var head := CheckCoin(ledger, order[0], coins[order[0]], now, permitted);
      FiredCoins(head.ledger, coins, order[1..], now) == FiredCoins(ledger, coins, order[1..], now)
  {
    var head := CheckCoin(ledger, order[0], coins[order[0]], now, permitted);
    var rest := order[1..];
    forall i | 0 <= i < |rest| ensures AgreeOn(head.ledger, ledger, rest[i]) {
      assert rest[i] == order[i + 1] != order[0];
    }
    FiredCoinsAgree(head.ledger, ledger, coins, rest, now);
  }

  /** With every coin visited once, the new ledger stamps exactly the coins
      whose rule held against the old ledger, whatever the visiting order. */
  lemma {:induction false} CheckCoinsLedger(ledger: Ledger, coins: map<string, CryptoSlice.Coin>, order: seq<string>, now: int, permitted: bool)
    requires Distinct(order)
    ensures CheckCoins(ledger, coins, order, now, permitted).ledger == Stamp(ledger, Elems(FiredCoins(ledger, coins, order, now)), now)
    decreases |order|
  {
    if order != [] {
      var a, rest := order[0], order[1..];
      assert Distinct(rest);
      if a !in coins {
        CheckCoinsLedger(ledger, coins, rest, now, permitted);
      } else {
        var head := CheckCoin(ledger, a, coins[a], now, permitted);
        CheckCoinsLedger(head.ledger, coins, rest, now, permitted);
        CoinLedgerAfterHead(ledger, coins, order, now, permitted);
      }
    }
  }

  /** One step of `CheckCoinsLedger`: the first coin's stamp followed by the
      rest's is the reference stamp of the whole order. */
  lemma CoinLedgerAfterHead(ledger: Ledger, coins: map<string, CryptoSlice.Coin>, order: seq<string>, now: int, permitted: bool)
    requires Distinct(order) && order != [] && order[0] in coins
    requires var head := CheckCoin(ledger, order[0], coins[order[0]], now, permitted);
      CheckCoins(head.ledger, coins, order[1..], now, permitted).ledger
        == Stamp(head.ledger, Elems(FiredCoins(head.ledger, coins, order[1..], now)), now)
    ensures CheckCoins(ledger, coins, order, now, permitted).ledger == Stamp(ledger, Elems(FiredCoins(ledger, coins, order, now)), now)
  {
    var a, rest := order[0], order[1..];
    CheckCoinsUnfold(ledger, coins, order, now, permitted);
    FiredAfterHead(ledger, coins, order, now, permitted);
    var restFired := FiredCoins(ledger, coins, rest, now);
    var headFired: seq<string> := if PriceFires(ledger, a, coins[a], now) then [a] else [];
    assert FiredCoins(ledger, coins, order, now) == headFired + restFired;
    CheckCoinStamps(ledger, a, coins[a], now, permitted);
    StampTwice(ledger, Elems(headFired), Elems(restFired), now);
    ElemsConcat(headFired, restFired);
  }

  /** With every coin visited once, the records are those of the coins whose
      rule held against the old ledger, in visiting order. */
  lemma {:induction false} CheckCoinsRecords(ledger: Ledger, coins: map<string, CryptoSlice.Coin>, order: seq<string>, now: int, permitted: bool)
    requires Distinct(order)
    ensures CheckCoins(ledger, coins, order, now, permitted).records == PriceRecords(coins, FiredCoins(ledger, coins, order, now))
    decreases |order|
  {
    if order != [] {
      var a, rest := order[0], order[1..];
      assert Distinct(rest);
      if a !in coins {
        CheckCoinsRecords(ledger, coins, rest, now, permitted);
      } else {
        var head := CheckCoin(ledger, a, coins[a], now, permitted);
        CheckCoinsUnfold(ledger, coins, order, now, permitted);
        CheckCoinsRecords(head.ledger, coins, rest, now, permitted);
        FiredAfterHead(ledger, coins, order, now, permitted);
        var restFired := FiredCoins(ledger, coins, rest, now);
        var headFired: seq<string> := if PriceFires(ledger, a, coins[a], now) then [a] else [];
        assert FiredCoins(ledger, coins, order, now) == headFired + restFired;
        assert head.records == PriceRecords(coins, headFired);
        PriceRecordsConcat(coins, headFired, restFired);
      }
    }
  }

  /** Per coin: with every coin visited once, its record is produced exactly
      when its rule holds, and the ledger entry for it is stamped with `now`
      exactly then and is otherwise as it was. */
  lemma PriceAlertFiresIff(ledger: Ledger, coins: map<string, CryptoSlice.Coin>, order: seq<string>, now: int, permitted: bool, id: string)
    requires Distinct(order)
    requires id in order && id in coins
    ensures var c := CheckCoins(ledger, coins, order, now, permitted);
      && (PriceRecord(id, coins[id]) in c.records <==> PriceFires(ledger, id, coins[id], now))
      && (PriceFires(ledger, id, coins[id], now) ==> id in c.ledger && c.ledger[id] == now)
      && (!PriceFires(ledger, id, coins[id], now) ==> AgreeOn(ledger, c.ledger, id))
  {
    CheckCoinsLedger(ledger, coins, order, now, permitted);
    CheckCoinsRecords(ledger, coins, order, now, permitted);
    var fired := FiredCoins(ledger, coins, order, now);
    var c := CheckCoins(ledger, coins, order, now, permitted);
    if PriceRecord(id, coins[id]) in c.records {
      var i :| 0 <= i < |c.records| && c.records[i] == PriceRecord(id, coins[id]);
      assert fired[i] == id;
    }
    if PriceFires(ledger, id, coins[id], now) {
      var i :| 0 <= i < |fired| && fired[i] == id;
      assert c.records[i] == PriceRecord(id, coins[id]);
    }
  }

  /** Each coin produces at most one record per check. */
  lemma OneRecordPerCoin(ledger: Ledger, coins: map<string, CryptoSlice.Coin>, order: seq<string>, now: int, permitted: bool)
    requires Distinct(order)
    ensures var rs := CheckCoins(ledger, coins, order, now, permitted).records;
      forall i, j | 0 <= i < j < |rs| :: rs[i].id != rs[j].id
  {
    CheckCoinsRecords(ledger, coins, order, now, permitted);
  }

  /** After an alert fires at `t0` (a real clock time, so positive) the same
      coin cannot fire again while `now - t0` is within the cooldown, and
      fires at `t0 + 300001` if its change still meets the threshold. */
  lemma CooldownIsStrict(ledger: Ledger, id: string, coin: CryptoSlice.Coin, later: CryptoSlice.Coin, t0: int, now: int, permitted: bool)
    requires t0 > 0
    requires PriceFires(ledger, id, coin, t0)
    ensures var after := CheckCoin(ledger, id, coin, t0, permitted).ledger;
      && (now - t0 <= AlertCooldown ==> CheckCoin(after, id, later, now, permitted).records == [])
      && (Abs(later.market.change24h) >= AlertThreshold ==>
            CheckCoin(after, id, later, t0 + AlertCooldown + 1, permitted).records == [PriceRecord(id, later)])
  {
  }

  /** Notification permission changes the notifications and nothing else. */
  lemma {:induction false} PriceRecordsIgnorePermission(ledger: Ledger, coins: map<string, CryptoSlice.Coin>, order: seq<string>, now: int)
    ensures CheckCoins(ledger, coins, order, now, true).ledger == CheckCoins(ledger, coins, order, now, false).ledger
    ensures CheckCoins(ledger, coins, order, now, true).records == CheckCoins(ledger, coins, order, now, false).records
    decreases |order|
  {
    if order != [] {
      if order[0] in coins {
        PriceRecordsIgnorePermission(CheckCoin(ledger, order[0], coins[order[0]], now, true).ledger, coins, order[1..], now);
      } else {
        PriceRecordsIgnorePermission(ledger, coins, order[1..], now);
      }
    }
  }

  /** No coin below the threshold ever fires. */
  lemma {:induction false} QuietCoinsNeverFire(ledger: Ledger, coins: map<string, CryptoSlice.Coin>, order: seq<string>, now: int, permitted: bool)
    requires forall id | id in coins :: Abs(coins[id].market.change24h) < AlertThreshold
    ensures CheckCoins(ledger, coins, order, now, permitted) == Check(ledger, [], [])
    decreases |order|
  {
    if order != [] {
      QuietCoinsNeverFire(ledger, coins, order[1..], now, permitted);
    }
  }

  // ---------------------------------------------------------------------
  // The weather rules
  // ---------------------------------------------------------------------

  /** The temperature family: heat above 35, else freezing below 0, each
      behind its own key's cooldown. */
  function TempAlert(ledger: Ledger, city: string, temp: real, now: int): (k: Option<WeatherKind>)
    ensures k.Some? ==> IsTemperatureKind(k.value)
    ensures k == Some(ExtremeHeat) <==> temp > 35.0 && Ready(ledger, CityKey(city, ExtremeHeat), now)
    ensures k == Some(Freezing) <==> temp < 0.0 && Ready(ledger, CityKey(city, Freezing), now)
  {
    if temp > 35.0 && Ready(ledger, CityKey(city, ExtremeHeat), now) then Some(ExtremeHeat)
    else if temp < 0.0 && Ready(ledger, CityKey(city, Freezing), now) then Some(Freezing)
    else None
  }

  /** The condition-code family, considered only when the code is defined:
      [200, 300) thunderstorm, else [500, 600) rain, else [600, 700) snow. */
  function ConditionAlert(ledger: Ledger, city: string, code: Option<int>, now: int): (k: Option<WeatherKind>)
    ensures k.Some? ==> !IsTemperatureKind(k.value)
    ensures code.None? ==> k.None?
    ensures k == Some(Thunderstorm) <==> code.Some? && 200 <= code.value < 300 && Ready(ledger, CityKey(city, Thunderstorm), now)
    ensures k == Some(Rain) <==> code.Some? && 500 <= code.value < 600 && Ready(ledger, CityKey(city, Rain), now)
    ensures k == Some(Snow) <==> code.Some? && 600 <= code.value < 700 && Ready(ledger, CityKey(city, Snow), now)
  {
    if code.Some? && 200 <= code.value < 300 && Ready(ledger, CityKey(city, Thunderstorm), now) then Some(Thunderstorm)
    else if code.Some? && 500 <= code.value < 600 && Ready(ledger, CityKey(city, Rain), now) then Some(Rain)
    else if code.Some? && 600 <= code.value < 700 && Ready(ledger, CityKey(city, Snow), now) then Some(Snow)
    else None
  }

  /** The last and third-to-last characters of each suffix tell the kinds apart. */
  lemma SuffixEndsDiffer(k1: WeatherKind, k2: WeatherKind)
    requires Suffix(k1)[|Suffix(k1)| - 1] == Suffix(k2)[|Suffix(k2)| - 1]
    requires Suffix(k1)[|Suffix(k1)| - 3] == Suffix(k2)[|Suffix(k2)| - 3]
    ensures k1 == k2
  {
  }

  /** Weather keys never collide: a key names one city and one rule. */
  lemma CityKeyInjective(c1: string, k1: WeatherKind, c2: string, k2: WeatherKind)
    requires CityKey(c1, k1) == CityKey(c2, k2)
    ensures c1 == c2 && k1 == k2
  {
    var w := CityKey(c1, k1);
    var s1, s2 := Suffix(k1), Suffix(k2);
    assert |s1| >= 5 && |s2| >= 5;
    assert w == c1 + s1 && w == c2 + s2;
    assert w[|w| - 1] == s1[|s1| - 1] && w[|w| - 1] == s2[|s2| - 1];
    assert w[|w| - 3] == s1[|s1| - 3] && w[|w| - 3] == s2[|s2| - 3];
    SuffixEndsDiffer(k1, k2);
    assert c1 == w[..|w| - |s1|] == c2;
  }

  /** A city whose reading lacks `weather` or `main` is skipped. */
  predicate Skips(data: WeatherSlice.WeatherData) {
    data.weather.None? || data.main.None?
  }

  /** A city with both blocks but an empty `weather` array makes
      `weather[0].id` throw, which ends the whole check. */
  predicate Crashes(data: WeatherSlice.WeatherData) {
    data.weather.Some? && data.main.Some? && data.weather.value == []
  }

  /** A weather rule's condition on a reading, its cooldown aside. */
  predicate Meets(k: WeatherKind, temp: real, code: Option<int>) {
    match k
    case ExtremeHeat => temp > 35.0
    case Freezing => temp < 0.0
    case Thunderstorm => code.Some? && 200 <= code.value < 300
    case Rain => code.Some? && 500 <= code.value < 600
    case Snow => code.Some? && 600 <= code.value < 700
  }

  /** Reference: the rules that hold for a city with this temperature and
      condition code against the given ledger, temperature family first. */
  function Decide(ledger: Ledger, city: string, temp: real, code: Option<int>, now: int): (kinds: seq<WeatherKind>)
    ensures |kinds| <= 2
    ensures forall i, j | 0 <= i < j < |kinds| :: IsTemperatureKind(kinds[i]) && !IsTemperatureKind(kinds[j])
    ensures forall i | 0 <= i < |kinds| :: Ready(ledger, CityKey(city, kinds[i]), now)
  {
    OptionToSeq(TempAlert(ledger, city, temp, now)) + OptionToSeq(ConditionAlert(ledger, city, code, now))
  }

  /** A rule is among the decided ones exactly when its condition holds and
      its key is out of cooldown: within a family the ranges do not overlap,
      so a rule in cooldown never hands over to another. */
  lemma DecideIff(ledger: Ledger, city: string, temp: real, code: Option<int>, now: int, k: WeatherKind)
    ensures k in Decide(ledger, city, temp, code, now) <==> Meets(k, temp, code) && Ready(ledger, CityKey(city, k), now)
  {
    var t, c := TempAlert(ledger, city, temp, now), ConditionAlert(ledger, city, code, now);
    assert k in Decide(ledger, city, temp, code, now) <==> t == Some(k) || c == Some(k);
  }

  /** Reference: the rules that hold for a city's reading. */
  function CityFired(ledger: Ledger, city: string, data: WeatherSlice.WeatherData, now: int): (kinds: seq<WeatherKind>)
    requires !Skips(data) && !Crashes(data)
  {
    Decide(ledger, city, data.main.value.temp, data.weather.value[0].id, now)
  }

  function KindKeys(city: string, kinds: seq<WeatherKind>): set<string> {
    set i | 0 <= i < |kinds| :: CityKey(city, kinds[i])
  }

  lemma KindKeysSmall(city: string, kinds: seq<WeatherKind>)
    ensures |kinds| == 0 ==> KindKeys(city, kinds) == {}
    ensures |kinds| == 1 ==> KindKeys(city, kinds) == {CityKey(city, kinds[0])}
    ensures |kinds| == 2 ==> KindKeys(city, kinds) == {CityKey(city, kinds[0]), CityKey(city, kinds[1])}
  {
    if |kinds| == 1 {
      assert CityKey(city, kinds[0]) in KindKeys(city, kinds);
    } else if |kinds| == 2 {
      assert CityKey(city, kinds[0]) in KindKeys(city, kinds);
      assert CityKey(city, kinds[1]) in KindKeys(city, kinds);
    }
  }

  function WeatherRecords(city: string, kinds: seq<WeatherKind>): (rs: seq<Alert>)
    ensures |rs| == |kinds|
    ensures forall i | 0 <= i < |kinds| :: rs[i] == WeatherAlert(city, kinds[i])
  {
    seq(|kinds|, i requires 0 <= i < |kinds| => WeatherAlert(city, kinds[i]))
  }

  function WeatherNotices(city: string, kinds: seq<WeatherKind>): (ns: seq<Notice>)
    ensures Announces(WeatherRecords(city, kinds), ns)
  {
    seq(|kinds|, i requires 0 <= i < |kinds| => WeatherNotice(city, kinds[i]))
  }

  /** Stamping the optional keys one after the other is one stamp of both. */
  lemma StampOptions(ledger: Ledger, city: string, t: Option<WeatherKind>, c: Option<WeatherKind>, now: int)
    ensures var l1 := if t.Some? then ledger[CityKey(city, t.value) := now] else ledger;
      var l2 := if c.Some? then l1[CityKey(city, c.value) := now] else l1;
      l2 == Stamp(ledger, KindKeys(city, OptionToSeq(t) + OptionToSeq(c)), now)
  {
    KindKeysSmall(city, OptionToSeq(t) + OptionToSeq(c));
  }

  /** The two rule families of one city, as written: the condition family is
      gated on the ledger the temperature family left. */
  function EvaluateCity(ledger: Ledger, city: string, temp: real, code: Option<int>, now: int, permitted: bool): (c: Check)
    ensures c.ledger == Stamp(ledger, KindKeys(city, Decide(ledger, city, temp, code, now)), now)
    ensures c.records == WeatherRecords(city, Decide(ledger, city, temp, code, now))
    ensures NoticesFollowPermission(c, permitted)
  {
    var t := TempAlert(ledger, city, temp, now);
    var l1 := if t.Some? then ledger[CityKey(city, t.value) := now] else ledger;
    var c := ConditionAlert(l1, city, code, now);
    var l2 := if c.Some? then l1[CityKey(city, c.value) := now] else l1;
    var kinds := OptionToSeq(t) + OptionToSeq(c);
    CityFamiliesIndependent(ledger, city, t, code, now);
    StampOptions(ledger, city, t, c, now);
    Check(l2, WeatherRecords(city, kinds), if permitted then WeatherNotices(city, kinds) else [])
  }

  datatype CityOutcome = Skipped | Crashed | Evaluated(check: Check)

  /** The visit of one city by `checkForWeatherAlerts`. */
  function CheckCity(ledger: Ledger, city: string, data: WeatherSlice.WeatherData, now: int, permitted: bool): (o: CityOutcome)
    ensures o.Skipped? <==> Skips(data)
    ensures o.Crashed? <==> Crashes(data)
    ensures o.Evaluated? ==>
      && o.check.ledger == Stamp(ledger, KindKeys(city, CityFired(ledger, city, data, now)), now)
      && o.check.records == WeatherRecords(city, CityFired(ledger, city, data, now))
      && NoticesFollowPermission(o.check, permitted)
  {
    if data.weather.None? || data.main.None? then Skipped
    else if data.weather.value == [] then Crashed
    else Evaluated(EvaluateCity(ledger, city, data.main.value.temp, data.weather.value[0].id, now, permitted))
  }

  /** Stamping a temperature key does not change the condition family's decision. */
  lemma CityFamiliesIndependent(ledger: Ledger, city: string, t: Option<WeatherKind>, code: Option<int>, now: int)
    requires t.Some? ==> IsTemperatureKind(t.value)
    ensures var l1 := if t.Some? then ledger[CityKey(city, t.value) := now] else ledger;
      ConditionAlert(l1, city, code, now) == ConditionAlert(ledger, city, code, now)
  {
    if t.Some? {
      var l1 := ledger[CityKey(city, t.value) := now];
      forall k | !IsTemperatureKind(k)
        ensures AgreeOn(l1, ledger, CityKey(city, k))
      {
        if CityKey(city, k) == CityKey(city, t.value) {
          CityKeyInjective(city, k, city, t.value);
        }
      }
    }
  }

  /** Some city visited in `order` would crash the check. */
  predicate AnyCrash(cities: map<string, WeatherSlice.WeatherData>, order: seq<string>) {
    exists i | 0 <= i < |order| :: order[i] in cities && Crashes(cities[order[i]])
  }

  lemma AnyCrashUnfold(cities: map<string, WeatherSlice.WeatherData>, order: seq<string>)
    requires order != []
    ensures AnyCrash(cities, order) <==> (order[0] in cities && Crashes(cities[order[0]])) || AnyCrash(cities, order[1..])
  {
    if AnyCrash(cities, order[1..]) {
      var i :| 0 <= i < |order[1..]| && order[1..][i] in cities && Crashes(cities[order[1..][i]]);
      assert order[i + 1] == order[1..][i];
    }
    if AnyCrash(cities, order) && !(order[0] in cities && Crashes(cities[order[0]])) {
      var i :| 0 <= i < |order| && order[i] in cities && Crashes(cities[order[i]]);
      assert order[1..][i - 1] == order[i];
    }
  }

  lemma AnnouncesConcat(r1: seq<Alert>, n1: seq<Notice>, r2: seq<Alert>, n2: seq<Notice>)
    ensures Announces(r1, n1) && Announces(r2, n2) ==> Announces(r1 + r2, n1 + n2)
  {
    if Announces(r1, n1) && Announces(r2, n2) {
      AnnouncesConcatBoth(r1, n1, r2, n2);
    }
  }

  lemma AnnouncesConcatBoth(r1: seq<Alert>, n1: seq<Notice>, r2: seq<Alert>, n2: seq<Notice>)
    requires Announces(r1, n1) && Announces(r2, n2)
    ensures Announces(r1 + r2, n1 + n2)
  {
    forall i | 0 <= i < |r1 + r2| ensures Matches((r1 + r2)[i], (n1 + n2)[i]) {
      if i < |r1| {
        assert (r1 + r2)[i] == r1[i] && (n1 + n2)[i] == n1[i];
      } else {
        assert (r1 + r2)[i] == r2[i - |r1|] && (n1 + n2)[i] == n2[i - |r1|];
      }
    }
  }

  /** What `checkForWeatherAlerts` leaves: the check so far, and whether a
      throw ended it early. */
  datatype WeatherCheck = WeatherCheck(check: Check, aborted: bool)

  /** `checkForWeatherAlerts`: the cities visited in `order`, each against the
      ledger the ones before left; a crash keeps what was done before it. */
  function CheckWeather(ledger: Ledger, cities: map<string, WeatherSlice.WeatherData>, order: seq<string>, now: int, permitted: bool): (w: WeatherCheck)
    ensures Grows(ledger, w.check.ledger, {now})
    ensures NoticesFollowPermission(w.check, permitted)
    ensures w.aborted <==> AnyCrash(cities, order)
    decreases |order|
  {
    if order == [] then WeatherCheck(Check(ledger, [], []), false)
    else
      AnyCrashUnfold(cities, order);
      var rest := order[1..];
      if order[0] !in cities then CheckWeather(ledger, cities, rest, now, permitted)
      else
        match CheckCity(ledger, order[0], cities[order[0]], now, permitted)
        case Skipped => CheckWeather(ledger, cities, rest, now, permitted)
        case Crashed => WeatherCheck(Check(ledger, [], []), true)
        case Evaluated(head) =>
          var tail := CheckWeather(head.ledger, cities, rest, now, permitted);
          AnnouncesConcat(head.records, head.notices, tail.check.records, tail.check.notices);
          WeatherCheck(Check(tail.check.ledger, head.records + tail.check.records, head.notices + tail.check.notices), tail.aborted)
  }

  /** Reference: the keys the cities' rules stamp, each city judged against
      the ledger as it was before the check. */
  function ReferenceKeys(ledger: Ledger, cities: map<string, WeatherSlice.WeatherData>, order: seq<string>, now: int): set<string>
    decreases |order|
  {
    if order == [] then {}
    else
      var here := if order[0] in cities && !Skips(cities[order[0]]) && !Crashes(cities[order[0]])
        then KindKeys(order[0], CityFired(ledger, order[0], cities[order[0]], now)) else {};
      here + ReferenceKeys(ledger, cities, order[1..], now)
  }

  /** Reference: the records of the cities' rules, each city judged against
      the ledger as it was before the check, in visiting order. */
  function ReferenceRecords(ledger: Ledger, cities: map<string, WeatherSlice.WeatherData>, order: seq<string>, now: int): seq<Alert>
    decreases |order|
  {
    if order == [] then []
    else
      var here := if order[0] in cities && !Skips(cities[order[0]]) && !Crashes(cities[order[0]])
        then WeatherRecords(order[0], CityFired(ledger, order[0], cities[order[0]], now)) else [];
      here + ReferenceRecords(ledger, cities, order[1..], now)
  }

  /** Ledgers that agree on every key of a city decide its rules alike. */
  lemma CityFiredAgree(l1: Ledger, l2: Ledger, city: string, data: WeatherSlice.WeatherData, now: int)
    requires !Skips(data) && !Crashes(data)
    requires forall k :: AgreeOn(l1, l2, CityKey(city, k))
    ensures CityFired(l1, city, data, now) == CityFired(l2, city, data, now)
  {
    assert AgreeOn(l1, l2, CityKey(city, ExtremeHeat)) && AgreeOn(l1, l2, CityKey(city, Freezing));
    assert AgreeOn(l1, l2, CityKey(city, Thunderstorm)) && AgreeOn(l1, l2, CityKey(city, Rain));
    assert AgreeOn(l1, l2, CityKey(city, Snow));
  }

  /** Ledgers that agree on every key of the visited cities give the same reference. */
  lemma {:induction false} ReferenceAgree(l1: Ledger, l2: Ledger, cities: map<string, WeatherSlice.WeatherData>, order: seq<string>, now: int)
    requires forall i, k | 0 <= i < |order| :: AgreeOn(l1, l2, CityKey(order[i], k))
    ensures ReferenceKeys(l1, cities, order, now) == ReferenceKeys(l2, cities, order, now)
    ensures ReferenceRecords(l1, cities, order, now) == ReferenceRecords(l2, cities, order, now)
    decreases |order|
  {
    if order != [] {
      assert forall i, k | 0 <= i < |order[1..]| :: AgreeOn(l1, l2, CityKey(order[1..][i], k)) by {
        forall i, k | 0 <= i < |order[1..]|
          ensures AgreeOn(l1, l2, CityKey(order[1..][i], k))
        {
          assert order[1..][i] == order[i + 1];
        }
      }
      ReferenceAgree(l1, l2, cities, order[1..], now);
      var a := order[0];
      if a in cities && !Skips(cities[a]) && !Crashes(cities[a]) {
        assert forall k :: AgreeOn(l1, l2, CityKey(a, k)) by {
          forall k ensures AgreeOn(l1, l2, CityKey(a, k)) {
            assert order[0] == a;
          }
        }
        CityFiredAgree(l1, l2, a, cities[a], now);
      }
    }
  }

  /** Stamping one city's keys leaves every other city's keys alone. */
  lemma StampOtherCity(ledger: Ledger, a: string, kinds: seq<WeatherKind>, now: int, b: string, k: WeatherKind)
    requires a != b
    ensures AgreeOn(Stamp(ledger, KindKeys(a, kinds), now), ledger, CityKey(b, k))
  {
    if CityKey(b, k) in KindKeys(a, kinds) {
      var i :| 0 <= i < |kinds| && CityKey(b, k) == CityKey(a, kinds[i]);
      CityKeyInjective(b, k, a, kinds[i]);
    }
  }

  /** The weather check decided city by city, for a city that is evaluated. */
  lemma CheckWeatherUnfold(ledger: Ledger, cities: map<string, WeatherSlice.WeatherData>, order: seq<string>, now: int, permitted: bool)
    requires order != [] && order[0] in cities
    requires !Skips(cities[order[0]]) && !Crashes(cities[order[0]])
    ensures var head := CheckCity(ledger, order[0], cities[order[0]], now, permitted).check;
      var tail := CheckWeather(head.ledger, cities, order[1..], now, permitted);
      CheckWeather(ledger, cities, order, now, permitted)
        == WeatherCheck(Check(tail.check.ledger, head.records + tail.check.records, head.notices + tail.check.notices), tail.aborted)
  {
  }

  /** The cities after the first decide alike after the first city's stamp. */
  lemma ReferenceAfterHead(ledger: Ledger, cities: map<string, WeatherSlice.WeatherData>, order: seq<string>, now: int, permitted: bool)
    requires Distinct(order) && order != [] && order[0] in cities
    requires !Skips(cities[order[0]]) && !Crashes(cities[order[0]])
    ensures var head := CheckCity(ledger, order[0], cities[order[0]], now, permitted).check;
      && ReferenceKeys(head.ledger, cities, order[1..], now) == ReferenceKeys(ledger, cities, order[1..], now)
      && ReferenceRecords(head.ledger, cities, order[1..], now) == ReferenceRecords(ledger, cities, order[1..], now)
  {
    var a, rest := order[0], order[1..];
    var kinds := CityFired(ledger, a, cities[a], now);
    var head := CheckCity(ledger, a, cities[a], now, permitted).check;
    forall i, k | 0 <= i < |rest|
      ensures AgreeOn(head.ledger, ledger, CityKey(rest[i], k))
    {
      assert rest[i] == order[i + 1] != a;
      StampOtherCity(ledger, a, kinds, now, rest[i], k);
    }
    ReferenceAgree(head.ledger, ledger, cities, rest, now);
  }

  /** With every city visited once and none crashing, the weather check
      stamps exactly the keys of the rules that held against the old ledger,
      whatever the visiting order. */
  lemma {:induction false} CheckWeatherLedger(ledger: Ledger, cities: map<string, WeatherSlice.WeatherData>, order: seq<string>, now: int, permitted: bool)
    requires Distinct(order)
    requires !AnyCrash(cities, order)
    ensures CheckWeather(ledger, cities, order, now, permitted).check.ledger == Stamp(ledger, ReferenceKeys(ledger, cities, order, now), now)
    decreases |order|
  {
    if order != [] {
      var a, rest := order[0], order[1..];
      assert Distinct(rest);
      AnyCrashUnfold(cities, order);
      if a !in cities || Skips(cities[a]) {
        SkippedHead(ledger, cities, order, now, permitted);
        CheckWeatherLedger(ledger, cities, rest, now, permitted);
      } else {
        var head := CheckCity(ledger, a, cities[a], now, permitted).check;
        CheckWeatherLedger(head.ledger, cities, rest, now, permitted);
        LedgerAfterHead(ledger, cities, order, now, permitted);
      }
    }
  }

  /** A first city that is missing or skipped adds nothing. */
  lemma SkippedHead(ledger: Ledger, cities: map<string, WeatherSlice.WeatherData>, order: seq<string>, now: int, permitted: bool)
    requires order != [] && (order[0] !in cities || Skips(cities[order[0]]))
    ensures CheckWeather(ledger, cities, order, now, permitted) == CheckWeather(ledger, cities, order[1..], now, permitted)
    ensures ReferenceKeys(ledger, cities, order, now) == ReferenceKeys(ledger, cities, order[1..], now)
    ensures ReferenceRecords(ledger, cities, order, now) == ReferenceRecords(ledger, cities, order[1..], now)
  {
  }

  /** One step of `CheckWeatherLedger`: an evaluated first city's stamps
      followed by the rest's are the reference stamps of the whole order. */
  lemma LedgerAfterHead(ledger: Ledger, cities: map<string, WeatherSlice.WeatherData>, order: seq<string>, now: int, permitted: bool)
    requires Distinct(order) && order != [] && order[0] in cities
    requires !Skips(cities[order[0]]) && !Crashes(cities[order[0]])
    requires var head := CheckCity(ledger, order[0], cities[order[0]], now, permitted).check;
      CheckWeather(head.ledger, cities, order[1..], now, permitted).check.ledger
        == Stamp(head.ledger, ReferenceKeys(head.ledger, cities, order[1..], now), now)
    ensures CheckWeather(ledger, cities, order, now, permitted).check.ledger == Stamp(ledger, ReferenceKeys(ledger, cities, order, now), now)
  {
    var a, rest := order[0], order[1..];
    var head := CheckCity(ledger, a, cities[a], now, permitted).check;
    CheckWeatherUnfold(ledger, cities, order, now, permitted);
    ReferenceAfterHead(ledger, cities, order, now, permitted);
    var here := KindKeys(a, CityFired(ledger, a, cities[a], now));
    assert head.ledger == Stamp(ledger, here, now);
    assert ReferenceKeys(ledger, cities, order, now) == here + ReferenceKeys(ledger, cities, rest, now);
    StampTwice(ledger, here, ReferenceKeys(ledger, cities, rest, now), now);
  }

  /** With every city visited once and none crashing, the weather check
      records exactly the alerts of the rules that held against the old
      ledger, in visiting order. */
  lemma {:induction false} CheckWeatherRecords(ledger: Ledger, cities: map<string, WeatherSlice.WeatherData>, order: seq<string>, now: int, permitted: bool)
    requires Distinct(order)
    requires !AnyCrash(cities, order)
    ensures CheckWeather(ledger, cities, order, now, permitted).check.records == ReferenceRecords(ledger, cities, order, now)
    decreases |order|
  {
    if order != [] {
      var a, rest := order[0], order[1..];
      assert Distinct(rest);
      AnyCrashUnfold(cities, order);
      if a !in cities || Skips(cities[a]) {
        SkippedHead(ledger, cities, order, now, permitted);
        CheckWeatherRecords(ledger, cities, rest, now, permitted);
      } else {
        var head := CheckCity(ledger, a, cities[a], now, permitted).check;
        CheckWeatherUnfold(ledger, cities, order, now, permitted);
        CheckWeatherRecords(head.ledger, cities, rest, now, permitted);
        ReferenceAfterHead(ledger, cities, order, now, permitted);
      }
    }
  }

  /** A city's records hold exactly its fired rules. */
  lemma WeatherRecordsHas(a: string, kinds: seq<WeatherKind>, city: string, k: WeatherKind)
    ensures WeatherAlert(city, k) in WeatherRecords(a, kinds) <==> city == a && k in kinds
  {
    var here := WeatherRecords(a, kinds);
    if WeatherAlert(city, k) in here {
      var i :| 0 <= i < |here| && here[i] == WeatherAlert(city, k);
    }
    if city == a && k in kinds {
      var i :| 0 <= i < |kinds| && kinds[i] == k;
      assert here[i] == WeatherAlert(city, k);
    }
  }

  /** Per city and rule: the reference holds a weather alert exactly when the
      city is visited, has both blocks and the rule holds against the old ledger. */
  lemma {:induction false} ReferenceRecordsIff(ledger: Ledger, cities: map<string, WeatherSlice.WeatherData>, order: seq<string>, now: int, city: string, k: WeatherKind)
    ensures WeatherAlert(city, k) in ReferenceRecords(ledger, cities, order, now)
      <==> city in order && city in cities && !Skips(cities[city]) && !Crashes(cities[city])
           && k in CityFired(ledger, city, cities[city], now)
    decreases |order|
  {
    if order != [] {
      ReferenceRecordsIff(ledger, cities, order[1..], now, city, k);
      var a := order[0];
      if a in cities && !Skips(cities[a]) && !Crashes(cities[a]) {
        WeatherRecordsHas(a, CityFired(ledger, a, cities[a], now), city, k);
      }
    }
  }

  /** Per city and rule: with every city visited once and none crashing, the
      weather check records an alert exactly when the city has both blocks and
      the rule holds against the ledger as it was before the check. */
  lemma WeatherAlertFiresIff(ledger: Ledger, cities: map<string, WeatherSlice.WeatherData>, order: seq<string>, now: int, permitted: bool, city: string, k: WeatherKind)
    requires Distinct(order)
    requires !AnyCrash(cities, order)
    ensures WeatherAlert(city, k) in CheckWeather(ledger, cities, order, now, permitted).check.records
      <==> city in order && city in cities && !Skips(cities[city]) && !Crashes(cities[city])
           && k in CityFired(ledger, city, cities[city], now)
  {
    CheckWeatherRecords(ledger, cities, order, now, permitted);
    ReferenceRecordsIff(ledger, cities, order, now, city, k);
  }

  /** Both families can fire for one city in one check (heat at 40 degrees and
      a thunderstorm code 201), while heat alone never brings freezing with it. */
  lemma BothFamiliesFire(city: string, name: string, cond: WeatherSlice.Condition, reading: WeatherSlice.Reading, now: int)
    requires reading.temp == 40.0
    ensures var storm := WeatherSlice.WeatherData(name, now, Some(reading), Some([cond.(id := Some(201))]), None);
      CheckCity(map[], city, storm, now, false) == Evaluated(Check(
        map[CityKey(city, ExtremeHeat) := now, CityKey(city, Thunderstorm) := now],
        [WeatherAlert(city, ExtremeHeat), WeatherAlert(city, Thunderstorm)], []))
    ensures var clear := WeatherSlice.WeatherData(name, now, Some(reading), Some([cond.(id := Some(800))]), None);
      CheckCity(map[], city, clear, now, false) == Evaluated(Check(
        map[CityKey(city, ExtremeHeat) := now], [WeatherAlert(city, ExtremeHeat)], []))
  {
    var storm := WeatherSlice.WeatherData(name, now, Some(reading), Some([cond.(id := Some(201))]), None);
    var kinds := CityFired(map[], city, storm, now);
    assert kinds == [ExtremeHeat, Thunderstorm];
    KindKeysSmall(city, kinds);
    var clear := WeatherSlice.WeatherData(name, now, Some(reading), Some([cond.(id := Some(800))]), None);
    assert CityFired(map[], city, clear, now) == [ExtremeHeat];
    KindKeysSmall(city, [ExtremeHeat]);
  }

  /** A weather rule that fired for a city at `t0 > 0` stays silent while
      `now - t0` is within the cooldown, and fires again at `t0 + 300001`
      if the later reading still meets its condition. */
  lemma WeatherCooldownIsStrict(ledger: Ledger, city: string, data: WeatherSlice.WeatherData, later: WeatherSlice.WeatherData, t0: int, now: int, permitted: bool, k: WeatherKind)
    requires t0 > 0
    requires !Skips(data) && !Crashes(data) && !Skips(later) && !Crashes(later)
    requires k in CityFired(ledger, city, data, t0)
    ensures var after := CheckCity(ledger, city, data, t0, permitted).check.ledger;
      && (now - t0 <= AlertCooldown ==> k !in CityFired(after, city, later, now))
      && (Meets(k, later.main.value.temp, later.weather.value[0].id) ==>
            k in CityFired(after, city, later, t0 + AlertCooldown + 1))
  {
    var after := CheckCity(ledger, city, data, t0, permitted).check.ledger;
    var kinds := CityFired(ledger, city, data, t0);
    var i :| 0 <= i < |kinds| && kinds[i] == k;
    assert CityKey(city, k) in KindKeys(city, kinds);
    assert after[CityKey(city, k)] == t0;
    var temp, code := later.main.value.temp, later.weather.value[0].id;
    DecideIff(after, city, temp, code, now, k);
    DecideIff(after, city, temp, code, t0 + AlertCooldown + 1, k);
  }

  /** The ledger is shared: a coin whose id is "london-rain" holds the key
      of London's rain rule, so its price alert silences London's rain alert. */
  lemma SharedLedgerCollision(coin: CryptoSlice.Coin, t0: int)
    requires t0 > 0 && Abs(coin.market.change24h) >= AlertThreshold
    ensures CityKey("london", Rain) == "london-rain"
    ensures !Ready(CheckCoin(map[], "london-rain", coin, t0, false).ledger, CityKey("london", Rain), t0 + 1)
  {
  }

  /** A city that crashes ends the weather check: the cities before it keep
      their stamps and records, and the cities after it are never visited. */
  lemma {:induction false} CrashKeepsPrefix(ledger: Ledger, cities: map<string, WeatherSlice.WeatherData>, pre: seq<string>, c: string, rest: seq<string>, now: int, permitted: bool)
    requires c in cities && Crashes(cities[c])
    requires !AnyCrash(cities, pre)
    ensures CheckWeather(ledger, cities, pre + [c] + rest, now, permitted) == WeatherCheck(CheckWeather(ledger, cities, pre, now, permitted).check, true)
    decreases |pre|
  {
    var order := pre + [c] + rest;
    if pre == [] {
      assert order[0] == c;
    } else {
      var a := pre[0];
      assert order[0] == a;
      assert order[1..] == pre[1..] + [c] + rest;
      AnyCrashUnfold(cities, pre);
      if a in cities && !Skips(cities[a]) {
        var head := CheckCity(ledger, a, cities[a], now, permitted).check;
        CrashKeepsPrefix(head.ledger, cities, pre[1..], c, rest, now, permitted);
      } else {
        CrashKeepsPrefix(ledger, cities, pre[1..], c, rest, now, permitted);
      }
    }
  }

  /** Hence whatever follows a crashing city does not matter. */
  lemma CrashIgnoresRest(ledger: Ledger, cities: map<string, WeatherSlice.WeatherData>, pre: seq<string>, c: string, s1: seq<string>, s2: seq<string>, now: int, permitted: bool)
    requires c in cities && Crashes(cities[c])
    requires !AnyCrash(cities, pre)
    ensures CheckWeather(ledger, cities, pre + [c] + s1, now, permitted) == CheckWeather(ledger, cities, pre + [c] + s2, now, permitted)
  {
    CrashKeepsPrefix(ledger, cities, pre, c, s1, now, permitted);
    CrashKeepsPrefix(ledger, cities, pre, c, s2, now, permitted);
  }

  /** Notification permission changes the notifications and nothing else. */
  lemma {:induction false} WeatherRecordsIgnorePermission(ledger: Ledger, cities: map<string, WeatherSlice.WeatherData>, order: seq<string>, now: int)
    ensures CheckWeather(ledger, cities, order, now, true).check.ledger == CheckWeather(ledger, cities, order, now, false).check.ledger
    ensures CheckWeather(ledger, cities, order, now, true).check.records == CheckWeather(ledger, cities, order, now, false).check.records
    ensures CheckWeather(ledger, cities, order, now, true).aborted == CheckWeather(ledger, cities, order, now, false).aborted
    decreases |order|
  {
    if order != [] {
      var a := order[0];
      if a in cities && CheckCity(ledger, a, cities[a], now, true).Evaluated? {
        WeatherRecordsIgnorePermission(CheckCity(ledger, a, cities[a], now, true).check.ledger, cities, order[1..], now);
      } else {
        WeatherRecordsIgnorePermission(ledger, cities, order[1..], now);
      }
    }
  }

  /** The weather check records weather alerts only, each for a city it visits. */
  lemma {:induction false} WeatherCheckRecordsWeather(ledger: Ledger, cities: map<string, WeatherSlice.WeatherData>, order: seq<string>, now: int, permitted: bool)
    ensures forall rec | rec in CheckWeather(ledger, cities, order, now, permitted).check.records :: rec.WeatherAlert? && rec.city in order
    decreases |order|
  {
    if order != [] {
      var a := order[0];
      if a in cities && CheckCity(ledger, a, cities[a], now, permitted).Evaluated? {
        var head := CheckCity(ledger, a, cities[a], now, permitted).check;
        WeatherCheckRecordsWeather(head.ledger, cities, order[1..], now, permitted);
        var tail := CheckWeather(head.ledger, cities, order[1..], now, permitted).check.records;
        assert CheckWeather(ledger, cities, order, now, permitted).check.records == head.records + tail;
      } else if a !in cities || Skips(cities[a]) {
        WeatherCheckRecordsWeather(ledger, cities, order[1..], now, permitted);
        var tail := CheckWeather(ledger, cities, order[1..], now, permitted).check.records;
        assert CheckWeather(ledger, cities, order, now, permitted).check.records == tail;
      } else {
        assert CheckWeather(ledger, cities, order, now, permitted).check.records == [];
      }
    }
  }

  /** With no city loaded the weather check does nothing. */
  lemma {:induction false} NoCitiesNoWeatherCheck(ledger: Ledger, order: seq<string>, now: int, permitted: bool)
    ensures CheckWeather(ledger, map[], order, now, permitted) == WeatherCheck(Check(ledger, [], []), false)
    decreases |order|
  {
    if order != [] {
      NoCitiesNoWeatherCheck(ledger, order[1..], now, permitted);
    }
  }
}

=== FILE: alert_service.dfy ===
/** The alert service's lifecycle and its refresh tick, wired to the crypto
    and weather parts of the store.

    A tick (`updateData`) first runs the weather check, when a minute has
    passed since the last one, and then refreshes the simulated prices and
    runs the price check: the price check waits on the refresh's promise,
    while the weather check runs at once. `Date.now()` is the tick's
    `now` (weather) and `priceNow` (prices); `Math.random()` is one draw per
    coin. The interval timer is reduced to a running flag: a tick is an
    explicit call. */
module AlertService {
  import opened Common
  import CryptoSlice
  import WeatherSlice
  import opened AlertRules

  /** The least time between two weather checks. */
  const WeatherCheckInterval: int := 60000

  /** The service's own fields: whether a timer is set, the cooldown ledger
      and the time of the last weather check. */
  datatype Service = Service(running: bool, ledger: Ledger, lastWeatherCheck: int)

  const InitialService: Service := Service(false, map[], 0)

  /** The service together with the parts of the store it reads and writes. */
  datatype Dashboard = Dashboard(service: Service, crypto: CryptoSlice.CryptoState, weather: WeatherSlice.WeatherState)

  /** The service and the store as the app starts them. */
  const InitialDashboard: Dashboard := Dashboard(InitialService, CryptoSlice.InitialState, WeatherSlice.InitialState)

  /** The outside world during one tick. */
  datatype TickInput = TickInput(
    now: int,                   // Date.now() when the tick starts
    priceNow: int,              // Date.now() when the price check runs
    draws: map<string, real>,   // Math.random() for each coin's price step
    permitted: bool,            // notification permission is granted
    coinOrder: seq<string>,     // enumeration order of the coin map
    cityOrder: seq<string>)     // enumeration order of the city map

  /** The tick's draws cover every coin and are values `Math.random()` can return. */
  predicate ValidDraws(d: Dashboard, input: TickInput) {
    && d.crypto.coins.Keys <= input.draws.Keys
    && forall id | id in input.draws :: CryptoSlice.IsDraw(input.draws[id])
  }

  datatype TickResult = TickResult(
    dash: Dashboard,
    records: seq<Alert>,
    notices: seq<Notice>,
    weatherChecked: bool,
    weatherAborted: bool)

  // ---------------------------------------------------------------------
  // Recording alerts in the store
  // ---------------------------------------------------------------------

  /** `triggerWeatherAlert` for every weather record, in order. */
  function RecordWeatherAlerts(ws: WeatherSlice.WeatherState, records: seq<Alert>, now: int): (r: WeatherSlice.WeatherState)
    ensures r.cities == ws.cities && r.loading == ws.loading && r.error == ws.error
    ensures r.lastAlerts.Keys == ws.lastAlerts.Keys + (set i | 0 <= i < |records| && records[i].WeatherAlert? :: records[i].city)
    ensures forall city | city in ws.lastAlerts && (forall i | 0 <= i < |records| :: !(records[i].WeatherAlert? && records[i].city == city)) ::
      r.lastAlerts[city] == ws.lastAlerts[city]
  {
    if records == [] then ws
    else
      var prefix := records[..|records| - 1];
      var last := records[|records| - 1];
      assert forall i | 0 <= i < |prefix| :: prefix[i] == records[i];
      var before := RecordWeatherAlerts(ws, prefix, now);
      if last.WeatherAlert? then WeatherSlice.TriggerWeatherAlert(before, last.city, Label(last.kind), now)
      else before
  }

  /** The store keeps, per city, the type of the last weather alert recorded for it. */
  lemma {:induction false} LastWeatherAlertWins(ws: WeatherSlice.WeatherState, records: seq<Alert>, now: int, i: nat)
    requires i < |records| && records[i].WeatherAlert?
    requires forall j | i < j < |records| :: !(records[j].WeatherAlert? && records[j].city == records[i].city)
    ensures RecordWeatherAlerts(ws, records, now).lastAlerts[records[i].city] == WeatherSlice.AlertMark(Label(records[i].kind), now)
  {
    if i < |records| - 1 {
      var prefix := records[..|records| - 1];
      LastWeatherAlertWins(ws, prefix, now, i);
    }
  }

  /** `triggerPriceAlert` for every price record, in order. */
  function RecordPriceAlerts(cs: CryptoSlice.CryptoState, records: seq<Alert>, now: int): (r: CryptoSlice.CryptoState)
    ensures r.coins == cs.coins && r.history == cs.history && r.loading == cs.loading && r.error == cs.error
    ensures r.lastAlertTime.Keys == cs.lastAlertTime.Keys + (set i | 0 <= i < |records| && records[i].PriceAlert? :: records[i].id)
    ensures forall i | 0 <= i < |records| && records[i].PriceAlert? :: r.lastAlertTime[records[i].id] == now
    ensures forall id | id in cs.lastAlertTime && (forall i | 0 <= i < |records| :: !(records[i].PriceAlert? && records[i].id == id)) ::
      r.lastAlertTime[id] == cs.lastAlertTime[id]
  {
    if records == [] then cs
    else
      var prefix := records[..|records| - 1];
      var last := records[|records| - 1];
      assert forall i | 0 <= i < |prefix| :: prefix[i] == records[i];
      var before := RecordPriceAlerts(cs, prefix, now);
      if last.PriceAlert? then CryptoSlice.TriggerPriceAlert(before, last.id, now)
      else before
  }

  // ---------------------------------------------------------------------
  // The tick
  // ---------------------------------------------------------------------

  /** The weather check is due when more than a minute has passed since the last one. */
  predicate WeatherDue(s: Service, now: int) {
    now - s.lastWeatherCheck > WeatherCheckInterval
  }

  /** The weather half of `updateData`: when due, note the time first, then
      check every city and record the alerts in the store. */
  function WeatherPhase(d: Dashboard, input: TickInput): (r: TickResult)
    ensures r.weatherChecked <==> WeatherDue(d.service, input.now)
    ensures r.weatherChecked ==> r.dash.service.lastWeatherCheck == input.now
    ensures !r.weatherChecked ==> r == TickResult(d, [], [], false, false)
    ensures r.dash.service.running == d.service.running
    ensures r.dash.crypto == d.crypto && r.dash.weather.cities == d.weather.cities
    ensures r.weatherChecked ==>
      var w := CheckWeather(d.service.ledger, d.weather.cities, input.cityOrder, input.now, input.permitted);
      && r.dash.service.ledger == w.check.ledger
      && r.records == w.check.records && r.notices == w.check.notices
      && r.weatherAborted == w.aborted
      && r.dash.weather == RecordWeatherAlerts(d.weather, w.check.records, input.now)
    ensures forall i | 0 <= i < |r.records| :: r.records[i].WeatherAlert? && r.records[i].city in input.cityOrder
    ensures Grows(d.service.ledger, r.dash.service.ledger, {input.now})
    ensures NoticesFollowPermission(Check(r.dash.service.ledger, r.records, r.notices), input.permitted)
  {
    if WeatherDue(d.service, input.now) then
      var w := CheckWeather(d.service.ledger, d.weather.cities, input.cityOrder, input.now, input.permitted);
      WeatherCheckRecordsWeather(d.service.ledger, d.weather.cities, input.cityOrder, input.now, input.permitted);
      var service := d.service.(lastWeatherCheck := input.now, ledger := w.check.ledger);
      var weather := RecordWeatherAlerts(d.weather, w.check.records, input.now);
      TickResult(d.(service := service, weather := weather), w.check.records, w.check.notices, true, w.aborted)
    else
      TickResult(d, [], [], false, false)
  }

  /** The price half of `updateData`: refresh every coin along the walk,
      check every coin and record the alerts in the store. */
  function PricePhase(d: Dashboard, input: TickInput): (r: TickResult)
    requires CryptoSlice.PositivePrices(d.crypto.coins)
    requires ValidDraws(d, input)
    ensures r.dash.crypto.coins.Keys == d.crypto.coins.Keys
    ensures CryptoSlice.PositivePrices(r.dash.crypto.coins)
    ensures r.dash.service.running == d.service.running
    ensures r.dash.service.lastWeatherCheck == d.service.lastWeatherCheck
    ensures r.dash.weather == d.weather
    ensures Grows(d.service.ledger, r.dash.service.ledger, {input.priceNow})
    ensures NoticesFollowPermission(Check(r.dash.service.ledger, r.records, r.notices), input.permitted)
    ensures forall i | 0 <= i < |r.records| :: r.records[i].PriceAlert?
    ensures !r.weatherChecked && !r.weatherAborted
    ensures var coins := CryptoSlice.UpdateCryptoPricesFulfilled(d.crypto, CryptoSlice.PriceUpdates(d.crypto.coins, input.draws)).coins;
      var c := CheckCoins(d.service.ledger, coins, input.coinOrder, input.priceNow, input.permitted);
      && r.dash.crypto.coins == coins
      && r.dash.service.ledger == c.ledger
      && r.records == c.records && r.notices == c.notices
    ensures r.dash.crypto.history == d.crypto.history && r.dash.crypto.loading == d.crypto.loading && r.dash.crypto.error == d.crypto.error
    ensures r.dash.crypto.lastAlertTime.Keys == d.crypto.lastAlertTime.Keys + (set i | 0 <= i < |r.records| && r.records[i].PriceAlert? :: r.records[i].id)
    ensures forall i | 0 <= i < |r.records| :: r.dash.crypto.lastAlertTime[r.records[i].id] == input.priceNow
    ensures forall id | id in d.crypto.lastAlertTime && (forall i | 0 <= i < |r.records| :: r.records[i].id != id) ::
      r.dash.crypto.lastAlertTime[id] == d.crypto.lastAlertTime[id]
  {
    var updates := CryptoSlice.PriceUpdates(d.crypto.coins, input.draws);
    var crypto := CryptoSlice.UpdateCryptoPricesFulfilled(d.crypto, updates);
    var c := CheckCoins(d.service.ledger, crypto.coins, input.coinOrder, input.priceNow, input.permitted);
    var recorded := RecordPriceAlerts(crypto, c.records, input.priceNow);
    TickResult(d.(service := d.service.(ledger := c.ledger), crypto := recorded), c.records, c.notices, false, false)
  }

  /** `updateData`: the weather half, then the price half. A throw in the
      weather check does not stop the price half, whose promise is already
      under way. */
  function UpdateData(d: Dashboard, input: TickInput): (r: TickResult)
    requires CryptoSlice.PositivePrices(d.crypto.coins)
    requires ValidDraws(d, input)
    ensures r.weatherChecked <==> input.now - d.service.lastWeatherCheck > WeatherCheckInterval
    ensures r.dash.service.lastWeatherCheck == if r.weatherChecked then input.now else d.service.lastWeatherCheck
    ensures r.dash.service.running == d.service.running
    ensures Grows(d.service.ledger, r.dash.service.ledger, {input.now, input.priceNow})
    ensures r.dash.crypto.coins.Keys == d.crypto.coins.Keys
    ensures CryptoSlice.PositivePrices(r.dash.crypto.coins)
    ensures r.dash.weather.cities == d.weather.cities
    ensures NoticesFollowPermission(Check(r.dash.service.ledger, r.records, r.notices), input.permitted)
    ensures var w := WeatherPhase(d, input);
      var p := PricePhase(w.dash, input);
      && r.dash == p.dash
      && r.records == w.records + p.records && r.notices == w.notices + p.notices
      && r.weatherAborted == w.weatherAborted
  {
    var w := WeatherPhase(d, input);
    var p := PricePhase(w.dash, input);
    AnnouncesConcat(w.records, w.notices, p.records, p.notices);
    GrowsTransitive(d.service.ledger, w.dash.service.ledger, p.dash.service.ledger, {input.now}, {input.priceNow});
    TickResult(p.dash, w.records + p.records, w.notices + p.notices, w.weatherChecked, w.weatherAborted)
  }

  /** Per coin, for the price half: the refreshed coin raises a price alert
      exactly when its new change is at least the threshold and its key is
      out of cooldown; then the key and the store's alert time both become
      the price-check time. */
  lemma PricePhaseFiresIff(d: Dashboard, input: TickInput, id: string)
    requires CryptoSlice.PositivePrices(d.crypto.coins)
    requires ValidDraws(d, input)
    requires Distinct(input.coinOrder) && id in input.coinOrder && id in d.crypto.coins
    ensures var r := PricePhase(d, input);
      var coin := r.dash.crypto.coins[id];
      && coin.market.price == CryptoSlice.SimulatePriceUpdate(d.crypto.coins[id].market.price, input.draws[id])
      && (PriceRecord(id, coin) in r.records <==> PriceFires(d.service.ledger, id, coin, input.priceNow))
      && (PriceFires(d.service.ledger, id, coin, input.priceNow) ==>
            && id in r.dash.service.ledger && r.dash.service.ledger[id] == input.priceNow
            && id in r.dash.crypto.lastAlertTime && r.dash.crypto.lastAlertTime[id] == input.priceNow)
  {
    var r := PricePhase(d, input);
    var coins := r.dash.crypto.coins;
    var record := PriceRecord(id, coins[id]);
    PriceAlertFiresIff(d.service.ledger, coins, input.coinOrder, input.priceNow, input.permitted, id);
    if record in r.records {
      var i :| 0 <= i < |r.records| && r.records[i] == record;
      assert r.dash.crypto.lastAlertTime[r.records[i].id] == input.priceNow;
    }
  }

  /** Per coin, for one tick: as for the price half, against the ledger the
      weather half left. */
  lemma TickPriceAlertFiresIff(d: Dashboard, input: TickInput, id: string)
    requires CryptoSlice.PositivePrices(d.crypto.coins)
    requires ValidDraws(d, input)
    requires Distinct(input.coinOrder) && id in input.coinOrder && id in d.crypto.coins
    ensures var r := UpdateData(d, input);
      var ledger := WeatherPhase(d, input).dash.service.ledger;
      var coin := r.dash.crypto.coins[id];
      && coin.market.price == CryptoSlice.SimulatePriceUpdate(d.crypto.coins[id].market.price, input.draws[id])
      && (PriceRecord(id, coin) in r.records <==> PriceFires(ledger, id, coin, input.priceNow))
      && (PriceFires(ledger, id, coin, input.priceNow) ==>
            && id in r.dash.service.ledger && r.dash.service.ledger[id] == input.priceNow
            && id in r.dash.crypto.lastAlertTime && r.dash.crypto.lastAlertTime[id] == input.priceNow)
  {
    var w := WeatherPhase(d, input);
    var p := PricePhase(w.dash, input);
    PricePhaseFiresIff(w.dash, input, id);
    var record := PriceRecord(id, p.dash.crypto.coins[id]);
    assert record !in w.records;
    assert record in w.records + p.records <==> record in p.records;
  }

  /** Per city and rule, for one tick in which no city crashes: a weather
      alert is recorded exactly when the check is due, the city is visited
      and has both blocks, and the rule holds against the ledger the tick
      started with. */
  lemma TickWeatherAlertFiresIff(d: Dashboard, input: TickInput, city: string, k: WeatherKind)
    requires CryptoSlice.PositivePrices(d.crypto.coins)
    requires ValidDraws(d, input)
    requires Distinct(input.cityOrder) && !AnyCrash(d.weather.cities, input.cityOrder)
    ensures var cities := d.weather.cities;
      WeatherAlert(city, k) in UpdateData(d, input).records <==>
        && WeatherDue(d.service, input.now) && city in input.cityOrder && city in cities
        && !Skips(cities[city]) && !Crashes(cities[city])
        && k in CityFired(d.service.ledger, city, cities[city], input.now)
  {
    var w := WeatherPhase(d, input);
    var p := PricePhase(w.dash, input);
    WeatherAlertFiresIff(d.service.ledger, d.weather.cities, input.cityOrder, input.now, input.permitted, city, k);
    assert WeatherAlert(city, k) !in p.records;
    assert WeatherAlert(city, k) in w.records + p.records <==> WeatherAlert(city, k) in w.records;
  }

  // ---------------------------------------------------------------------
  // Lifecycle
  // ---------------------------------------------------------------------

  /** `connect`: a no-op while a timer is set; otherwise set the timer and
      run one update straight away. */
  function Connect(d: Dashboard, input: TickInput): (r: TickResult)
    requires CryptoSlice.PositivePrices(d.crypto.coins)
    requires ValidDraws(d, input)
    ensures d.service.running ==> r == TickResult(d, [], [], false, false)
    ensures !d.service.running ==> r == UpdateData(d.(service := d.service.(running := true)), input)
    ensures r.dash.service.running
    ensures !d.service.running ==> (r.weatherChecked <==> WeatherDue(d.service, input.now))
  {
    if d.service.running then TickResult(d, [], [], false, false)
    else UpdateData(d.(service := d.service.(running := true)), input)
  }

  /** `disconnect`: clear the timer, if any. */
  function Disconnect(d: Dashboard): (r: Dashboard)
    ensures !r.service.running
    ensures !d.service.running ==> r == d
    ensures r.service.ledger == d.service.ledger && r.service.lastWeatherCheck == d.service.lastWeatherCheck
    ensures r.crypto == d.crypto && r.weather == d.weather
  {
    d.(service := d.service.(running := false))
  }

  /** One firing of the interval timer: a tick while running, nothing otherwise. */
  function TimerFires(d: Dashboard, input: TickInput): (r: TickResult)
    requires CryptoSlice.PositivePrices(d.crypto.coins)
    requires ValidDraws(d, input)
    ensures !d.service.running ==> r == TickResult(d, [], [], false, false)
    ensures d.service.running ==> r == UpdateData(d, input)
    ensures r.dash.service.running == d.service.running
    ensures d.service.running ==>
      && (r.weatherChecked <==> WeatherDue(d.service, input.now))
      && r.dash.service.lastWeatherCheck == (if r.weatherChecked then input.now else d.service.lastWeatherCheck)
      && Grows(d.service.ledger, r.dash.service.ledger, {input.now, input.priceNow})
      && r.dash.crypto.coins.Keys == d.crypto.coins.Keys
      && CryptoSlice.PositivePrices(r.dash.crypto.coins)
      && r.dash.weather.cities == d.weather.cities
      && NoticesFollowPermission(Check(r.dash.service.ledger, r.records, r.notices), input.permitted)
  {
    if d.service.running then UpdateData(d, input) else TickResult(d, [], [], false, false)
  }

  /** Connecting twice sets one timer: the second call changes nothing. */
  lemma ConnectIdempotent(d: Dashboard, first: TickInput, second: TickInput)
    requires CryptoSlice.PositivePrices(d.crypto.coins)
    requires ValidDraws(d, first)
    requires ValidDraws(Connect(d, first).dash, second)
    requires CryptoSlice.PositivePrices(Connect(d, first).dash.crypto.coins)
    ensures Connect(Connect(d, first).dash, second) == TickResult(Connect(d, first).dash, [], [], false, false)
  {
  }

  /** After `disconnect` no tick runs; `disconnect` again is a no-op; and
      `connect` starts the service again with an immediate update. */
  lemma DisconnectThenConnect(d: Dashboard, input: TickInput)
    requires CryptoSlice.PositivePrices(d.crypto.coins)
    requires ValidDraws(d, input)
    ensures TimerFires(Disconnect(d), input) == TickResult(Disconnect(d), [], [], false, false)
    ensures Disconnect(Disconnect(d)) == Disconnect(d)
    ensures Connect(Disconnect(d), input) == UpdateData(d.(service := d.service.(running := true)), input)
    ensures Connect(Disconnect(d), input).dash.service.running
  {
  }

  /** The first update of a fresh service checks the weather once the clock
      is past one minute, since the last check starts at 0. */
  lemma FirstUpdateChecksWeather(d: Dashboard, input: TickInput)
    requires d.service == InitialService
    requires CryptoSlice.PositivePrices(d.crypto.coins)
    requires ValidDraws(d, input)
    requires input.now > WeatherCheckInterval
    ensures Connect(d, input).weatherChecked
    ensures Connect(d, input).dash.service.lastWeatherCheck == input.now
  {
  }

  /** Connecting on a fresh store raises nothing, since no coin and no city
      is loaded yet: the ledger stays empty, the store is untouched, and the
      weather check time is noted once the clock is past one minute. */
  lemma FreshStartIsQuiet(input: TickInput)
    requires ValidDraws(InitialDashboard, input)
    ensures var r := Connect(InitialDashboard, input);
      && r.records == [] && r.notices == []
      && r.dash.service.running
      && r.dash.service.ledger == map[]
      && r.dash.service.lastWeatherCheck == (if input.now > WeatherCheckInterval then input.now else 0)
      && r.dash.crypto == CryptoSlice.InitialState && r.dash.weather == WeatherSlice.InitialState
  {
    NoCitiesNoWeatherCheck(map[], input.cityOrder, input.now, input.permitted);
    QuietCoinsNeverFire(map[], map[], input.coinOrder, input.priceNow, input.permitted);
  }

  /** Weather checks are more than a minute apart: after a check at `now`,
      a tick at most a minute later skips the weather. */
  lemma WeatherChecksSpaced(d: Dashboard, first: TickInput, second: TickInput)
    requires CryptoSlice.PositivePrices(d.crypto.coins)
    requires ValidDraws(d, first)
    requires UpdateData(d, first).weatherChecked
    requires ValidDraws(UpdateData(d, first).dash, second)
    requires second.now - first.now <= WeatherCheckInterval
    ensures !UpdateData(UpdateData(d, first).dash, second).weatherChecked
  {
  }

  /** Notification permission changes the notifications and nothing else. */
  lemma TickIgnoresPermission(d: Dashboard, input: TickInput)
    requires CryptoSlice.PositivePrices(d.crypto.coins)
    requires ValidDraws(d, input)
    ensures UpdateData(d, input.(permitted := true)).dash == UpdateData(d, input.(permitted := false)).dash
    ensures UpdateData(d, input.(permitted := true)).records == UpdateData(d, input.(permitted := false)).records
  {
    var t, f := input.(permitted := true), input.(permitted := false);
    WeatherRecordsIgnorePermission(d.service.ledger, d.weather.cities, input.cityOrder, input.now);
    var w := WeatherPhase(d, t);
    assert w.dash == WeatherPhase(d, f).dash && w.records == WeatherPhase(d, f).records;
    var coins := CryptoSlice.UpdateCryptoPricesFulfilled(w.dash.crypto, CryptoSlice.PriceUpdates(w.dash.crypto.coins, input.draws)).coins;
    PriceRecordsIgnorePermission(w.dash.service.ledger, coins, input.coinOrder, input.priceNow);
  }

  /** While every coin's change is below the threshold, the simulated walk
      keeps it there, so a tick raises no price alert. */
  lemma QuietMarketStaysQuiet(d: Dashboard, input: TickInput)
    requires CryptoSlice.PositivePrices(d.crypto.coins)
    requires ValidDraws(d, input)
    requires forall id | id in d.crypto.coins :: Abs(d.crypto.coins[id].market.change24h) < AlertThreshold
    ensures UpdateData(d, input).records == WeatherPhase(d, input).records
    ensures UpdateData(d, input).dash.crypto.lastAlertTime == d.crypto.lastAlertTime
    ensures forall id | id in UpdateData(d, input).dash.crypto.coins ::
      Abs(UpdateData(d, input).dash.crypto.coins[id].market.change24h) < AlertThreshold
  {
    var w := WeatherPhase(d, input);
    var updates := CryptoSlice.PriceUpdates(w.dash.crypto.coins, input.draws);
    CryptoSlice.RefreshStaysQuiet(w.dash.crypto.coins, input.draws);
    var coins := CryptoSlice.UpdateCryptoPricesFulfilled(w.dash.crypto, updates).coins;
    QuietCoinsNeverFire(w.dash.service.ledger, coins, input.coinOrder, input.priceNow, input.permitted);
  }

  /** A city hit by heat and a thunderstorm in one check ends up with the
      thunderstorm in the store: its record comes second and replaces the first. */
  lemma StoreKeepsConditionOverHeat(ws: WeatherSlice.WeatherState, city: string, now: int)
    ensures RecordWeatherAlerts(ws, [WeatherAlert(city, ExtremeHeat), WeatherAlert(city, Thunderstorm)], now).lastAlerts[city]
         == WeatherSlice.AlertMark("thunderstorm", now)
  {
    LastWeatherAlertWins(ws, [WeatherAlert(city, ExtremeHeat), WeatherAlert(city, Thunderstorm)], now, 1);
  }
}

=== FILE: common.dfy ===
/** Small shared vocabulary: optional values, JavaScript truthiness of
    messages, sequence distinctness and the character-case mappings the
    store code relies on. */
module Common {

  /** A value that may be absent (`undefined` or `null` in the source). */
  datatype Option<+T> = None | Some(value: T)

  /** Zero or one element, in that order. */
  function OptionToSeq<T>(o: Option<T>): (s: seq<T>)
    ensures |s| <= 1
    ensures |s| == 1 <==> o.Some?
    ensures o.Some? ==> s[0] == o.value
  {
    match o
    case None => []
    case Some(v) => [v]
  }

  /** No element occurs twice. */
  predicate Distinct<T(==)>(s: seq<T>) {
    forall i, j | 0 <= i < j < |s| :: s[i] != s[j]
  }

  /** The absolute value of a real. */
  function Abs(x: real): (r: real)
    ensures r >= 0.0
    ensures r == x || r == -x
  {
    if x < 0.0 then -x else x
  }

  /** `message || fallback`: an absent or empty message is falsy. */
  function MessageOr(message: Option<string>, fallback: string): string {
    if message.Some? && message.value != [] then message.value else fallback
  }

  /** `toLowerCase` on one character, for the ASCII letters and for the one
      non-ASCII character whose lower case is an ASCII letter (the Kelvin
      sign, which lowers to 'k'). */
  function LowerChar(c: char): char {
    if 'A' <= c <= 'Z' then (c as int + 32) as char
    else if c == '\U{212A}' then 'k'
    else c
  }

  /** `toUpperCase` on one character, for the ASCII letters. */
  function UpperChar(c: char): char {
    if 'a' <= c <= 'z' then (c as int - 32) as char else c
  }

  function ToLower(s: string): (r: string)
    ensures |r| == |s|
    ensures forall i | 0 <= i < |s| :: r[i] == LowerChar(s[i])
  {
    seq(|s|, i requires 0 <= i < |s| => LowerChar(s[i]))
  }

  function ToUpper(s: string): (r: string)
    ensures |r| == |s|
    ensures forall i | 0 <= i < |s| :: r[i] == UpperChar(s[i])
  {
    seq(|s|, i requires 0 <= i < |s| => UpperChar(s[i]))
  }
}

=== FILE: crypto_slice.dfy ===
/** The crypto part of the store: coin records, the simulated random walk
    that refreshes prices, the exponential smoothing of the 24-hour change,
    the mock price history, the fallback coins and the reducers.

    `Math.random()` and `Date.now()` are parameters: a draw `r` stands for
    one call of `Math.random()` and is in [0, 1). */
module CryptoSlice {
  import opened Common

  datatype MarketData = MarketData(
    price: real,             // current_price.usd
    marketCap: real,         // market_cap.usd
    volume: real,            // total_volume.usd
    circulatingSupply: real,
    change24h: real)         // price_change_percentage_24h

  datatype Coin = Coin(id: string, name: string, symbol: string, image: string, market: MarketData)

  /** One `[timestamp, value]` pair of a history series. */
  datatype Point = Point(time: int, value: real)

  datatype History = History(prices: seq<Point>, marketCaps: seq<Point>, volumes: seq<Point>)

  datatype CryptoState = CryptoState(
    coins: map<string, Coin>,
    history: map<string, History>,
    loading: bool,
    error: Option<string>,
    lastAlertTime: map<string, int>)

  const InitialState: CryptoState := CryptoState(map[], map[], false, None, map[])

  /** The tracked coins, in the order the fallback walks them. */
  const CoinIds: seq<string> := ["bitcoin", "ethereum", "solana"]

  /** The two requests whose failure the slice reports. */
  datatype Request = CryptoData | CryptoHistory

  function DefaultError(req: Request): string {
    match req
    case CryptoData => "Failed to fetch crypto data"
    case CryptoHistory => "Failed to fetch crypto history data"
  }

  /** A value `Math.random()` can return. */
  predicate IsDraw(r: real) {
    0.0 <= r < 1.0
  }

  /** Every tracked coin has a positive price, so percentage changes are defined. */
  predicate PositivePrices(coins: map<string, Coin>) {
    forall id | id in coins :: coins[id].market.price > 0.0
  }

  // ---------------------------------------------------------------------
  // Random walk and smoothing
  // ---------------------------------------------------------------------

  /** The percentage a draw moves the price by: uniform in [-2, 2). */
  function DrawPercent(r: real): (pct: real)
    ensures IsDraw(r) ==> -2.0 <= pct < 2.0
  {
    r * 4.0 - 2.0
  }

  /** `simulatePriceUpdate`: the price moved by `DrawPercent(r)` percent. */
  function SimulatePriceUpdate(price: real, r: real): (p: real)
    ensures price > 0.0 && IsDraw(r) ==> 0.98 * price <= p < 1.02 * price
  {
    var factor := 1.0 + DrawPercent(r) / 100.0;
    assert price > 0.0 && IsDraw(r) ==> 0.98 <= factor < 1.02;
    ScaleBounds(price, factor);
    price * factor
  }

  lemma ScaleBounds(price: real, factor: real)
    ensures price > 0.0 && 0.98 <= factor < 1.02 ==> 0.98 * price <= price * factor < 1.02 * price
  {
    if price > 0.0 && 0.98 <= factor < 1.02 {
      assert price * factor - 0.98 * price == price * (factor - 0.98);
      assert 1.02 * price - price * factor == price * (1.02 - factor);
    }
  }

  /** The instantaneous percentage change from `oldPrice` to `newPrice`. */
  function PercentChange(oldPrice: real, newPrice: real): real
    requires oldPrice != 0.0
  {
    (newPrice - oldPrice) / oldPrice * 100.0
  }

  /** Exponential smoothing of the 24-hour change with weights 0.95 / 0.05. */
  function Smooth(oldChange: real, instant: real): (r: real)
    ensures oldChange <= instant ==> oldChange <= r <= instant
    ensures instant <= oldChange ==> instant <= r <= oldChange
  {
    oldChange * 0.95 + instant * 0.05
  }

  /** The walk's instantaneous change is exactly the drawn percentage. */
  lemma SimulatedPercentIsDrawPercent(price: real, r: real)
    requires price > 0.0
    ensures PercentChange(price, SimulatePriceUpdate(price, r)) == DrawPercent(r)
  {
    var p := SimulatePriceUpdate(price, r);
    var f := 1.0 + DrawPercent(r) / 100.0;
    assert p == price * f;
    assert p - price == price * (f - 1.0);
    DivideProduct(price, f - 1.0);
  }

  lemma DivideProduct(a: real, b: real)
    requires a != 0.0
    ensures (a * b) / a == b
  {
  }

  /** The worked example: a change of 5.0 and a move from 100 to 102 give 4.85. */
  lemma SmoothingExample()
    ensures Smooth(5.0, PercentChange(100.0, 102.0)) == 4.85
  {
  }

  /** Smoothing with an instantaneous change below 2 in size cannot lift a
      change that is below the 2.0 alert threshold up to it, and never grows a
      larger change by more than 0.1. */
  lemma SmoothStaysBelowThreshold(oldChange: real, instant: real)
    requires -2.0 <= instant < 2.0
    ensures Abs(Smooth(oldChange, instant)) <= Abs(oldChange) * 0.95 + 0.1
    ensures Abs(oldChange) < 2.0 ==> Abs(Smooth(oldChange, instant)) < 2.0
  {
    assert -0.1 <= instant * 0.05 <= 0.1;
    if oldChange < 0.0 {
      assert Abs(oldChange) * 0.95 == -(oldChange * 0.95);
    } else {
      assert Abs(oldChange) * 0.95 == oldChange * 0.95;
    }
  }

  // ---------------------------------------------------------------------
  // updateCryptoPrices: the payload and its reducer
  // ---------------------------------------------------------------------

  /** One coin after one step of the walk with draw `r`. */
  function Advance(coin: Coin, r: real): Coin
    requires coin.market.price > 0.0
  {
    var newPrice := SimulatePriceUpdate(coin.market.price, r);
    coin.(market := coin.market.(
      price := newPrice,
      change24h := Smooth(coin.market.change24h, PercentChange(coin.market.price, newPrice))))
  }

  /** The payload of `updateCryptoPrices`: every coin advanced by its own draw. */
  function PriceUpdates(coins: map<string, Coin>, draws: map<string, real>): (updates: map<string, Coin>)
    requires PositivePrices(coins)
    requires coins.Keys <= draws.Keys
    requires forall id | id in draws :: IsDraw(draws[id])
    ensures updates.Keys == coins.Keys
    ensures PositivePrices(updates)
    ensures forall id | id in updates ::
      && updates[id].id == coins[id].id
      && updates[id].name == coins[id].name
      && updates[id].symbol == coins[id].symbol
      && updates[id].image == coins[id].image
      && updates[id].market.marketCap == coins[id].market.marketCap
      && updates[id].market.volume == coins[id].market.volume
      && updates[id].market.circulatingSupply == coins[id].market.circulatingSupply
      && updates[id].market.price == SimulatePriceUpdate(coins[id].market.price, draws[id])
      && 0.98 * coins[id].market.price <= updates[id].market.price < 1.02 * coins[id].market.price
      && updates[id].market.change24h == coins[id].market.change24h * 0.95
           + (updates[id].market.price - coins[id].market.price) / coins[id].market.price * 100.0 * 0.05
      && updates[id].market.change24h == coins[id].market.change24h * 0.95 + DrawPercent(draws[id]) * 0.05
  {
    var updates := map id | id in coins :: Advance(coins[id], draws[id]);
    assert forall id | id in coins :: PercentChange(coins[id].market.price, updates[id].market.price) == DrawPercent(draws[id]) by {
      forall id | id in coins
        ensures PercentChange(coins[id].market.price, updates[id].market.price) == DrawPercent(draws[id])
      {
        SimulatedPercentIsDrawPercent(coins[id].market.price, draws[id]);
      }
    }
    updates
  }

  /** `updateCryptoPrices.fulfilled`: each payload entry overwrites its coin. */
  function UpdateCryptoPricesFulfilled(state: CryptoState, updates: map<string, Coin>): (s: CryptoState)
    ensures s.coins.Keys == state.coins.Keys + updates.Keys
    ensures forall id | id in updates :: s.coins[id] == updates[id]
    ensures forall id | id in state.coins && id !in updates :: s.coins[id] == state.coins[id]
    ensures s.history == state.history && s.loading == state.loading
    ensures s.error == state.error && s.lastAlertTime == state.lastAlertTime
  {
    state.(coins := state.coins + updates)
  }

  /** A whole refresh of the walk keeps the set of coins and their positive prices. */
  lemma RefreshKeepsCoins(state: CryptoState, draws: map<string, real>)
    requires PositivePrices(state.coins)
    requires state.coins.Keys <= draws.Keys
    requires forall id | id in draws :: IsDraw(draws[id])
    ensures UpdateCryptoPricesFulfilled(state, PriceUpdates(state.coins, draws)).coins.Keys == state.coins.Keys
    ensures PositivePrices(UpdateCryptoPricesFulfilled(state, PriceUpdates(state.coins, draws)).coins)
  {
  }

  /** A refresh never raises a change below the alert threshold to it. */
  lemma RefreshStaysQuiet(coins: map<string, Coin>, draws: map<string, real>)
    requires PositivePrices(coins)
    requires coins.Keys <= draws.Keys
    requires forall id | id in draws :: IsDraw(draws[id])
    requires forall id | id in coins :: Abs(coins[id].market.change24h) < 2.0
    ensures forall id | id in PriceUpdates(coins, draws) :: Abs(PriceUpdates(coins, draws)[id].market.change24h) < 2.0
  {
    var updates := PriceUpdates(coins, draws);
    forall id | id in updates
      ensures Abs(updates[id].market.change24h) < 2.0
    {
      SmoothStaysBelowThreshold(coins[id].market.change24h, DrawPercent(draws[id]));
    }
  }

  // ---------------------------------------------------------------------
  // Reducers
  // ---------------------------------------------------------------------

  /** `updateCryptoPrice`: a known coin takes the new price and a smoothed
      change; an unknown id leaves the state as it is. */
  function UpdateCryptoPrice(state: CryptoState, id: string, price: real): (s: CryptoState)
    requires id in state.coins ==> state.coins[id].market.price != 0.0
    ensures id !in state.coins ==> s == state
    ensures s.coins.Keys == state.coins.Keys
    ensures forall other | other in state.coins && other != id :: s.coins[other] == state.coins[other]
    ensures id in state.coins ==>
      && s.coins[id].market.price == price
      && s.coins[id].market.change24h
           == state.coins[id].market.change24h * 0.95
              + (price - state.coins[id].market.price) / state.coins[id].market.price * 100.0 * 0.05
      && s.coins[id] == state.coins[id].(market := s.coins[id].market)
      && s.coins[id].market == state.coins[id].market.(price := price, change24h := s.coins[id].market.change24h)
    ensures s.history == state.history && s.loading == state.loading
    ensures s.error == state.error && s.lastAlertTime == state.lastAlertTime
  {
    if id in state.coins then
      var coin := state.coins[id];
      var change := Smooth(coin.market.change24h, PercentChange(coin.market.price, price));
      state.(coins := state.coins[id := coin.(market := coin.market.(price := price, change24h := change))])
    else
      state
  }

  /** `triggerPriceAlert`: remember when the alert for `id` was sent. */
  function TriggerPriceAlert(state: CryptoState, id: string, now: int): (s: CryptoState)
    ensures s.lastAlertTime.Keys == state.lastAlertTime.Keys + {id}
    ensures s.lastAlertTime[id] == now
    ensures forall other | other in state.lastAlertTime && other != id :: s.lastAlertTime[other] == state.lastAlertTime[other]
    ensures s.coins == state.coins && s.history == state.history
    ensures s.loading == state.loading && s.error == state.error
  {
    state.(lastAlertTime := state.lastAlertTime[id := now])
  }

  /** The `pending` case of `fetchCryptoData` and of `fetchCryptoHistory`. */
  function FetchPending(state: CryptoState): (s: CryptoState)
    ensures s.loading && s.error == None
    ensures s.coins == state.coins && s.history == state.history && s.lastAlertTime == state.lastAlertTime
  {
    state.(loading := true, error := None)
  }

  /** The `rejected` cases: the error message, or the request's default when it is empty. */
  function FetchRejected(state: CryptoState, req: Request, message: Option<string>): (s: CryptoState)
    ensures !s.loading && s.error.Some?
    ensures message.Some? && message.value != [] ==> s.error == Some(message.value)
    ensures (message.None? || message.value == []) ==> s.error == Some(DefaultError(req))
    ensures s.coins == state.coins && s.history == state.history && s.lastAlertTime == state.lastAlertTime
  {
    state.(loading := false, error := Some(MessageOr(message, DefaultError(req))))
  }

  /** `fetchCryptoData.fulfilled`: the coin map is replaced wholesale. */
  function FetchCryptoDataFulfilled(state: CryptoState, coins: map<string, Coin>): (s: CryptoState)
    ensures s.coins == coins && !s.loading && s.error == None
    ensures s.history == state.history && s.lastAlertTime == state.lastAlertTime
  {
    state.(loading := false, coins := coins, error := None)
  }

  /** `fetchCryptoHistory.fulfilled`: store the history of one coin. */
  function FetchCryptoHistoryFulfilled(state: CryptoState, id: string, data: History): (s: CryptoState)
    ensures s.history.Keys == state.history.Keys + {id} && s.history[id] == data
    ensures forall other | other in state.history && other != id :: s.history[other] == state.history[other]
    ensures !s.loading && s.error == None
    ensures s.coins == state.coins && s.lastAlertTime == state.lastAlertTime
  {
    state.(loading := false, history := state.history[id := data], error := None)
  }

  // ---------------------------------------------------------------------
  // Mock history
  // ---------------------------------------------------------------------

  /** The three `Math.random()` calls of one mock data point, in call order. */
  datatype MockDraw = MockDraw(price: real, volume: real, marketCap: real)

  predicate ValidMockDraw(d: MockDraw) {
    IsDraw(d.price) && IsDraw(d.volume) && IsDraw(d.marketCap)
  }

  /** The spacing of mock points: an hour for a one-day chart, a day otherwise. */
  function Interval(days: int): (ms: int)
    ensures ms > 0
  {
    if days <= 1 then 3600000 else 86400000
  }

  /** The number of mock points: 24 hourly points for a one-day chart. */
  function PointCount(days: int): (n: nat)
    ensures days <= 1 ==> n == 24
    ensures days > 1 ==> n == days
  {
    if days <= 1 then 24 else days
  }

  /** The price before point `i`: the base price, then the previous point's price. */
  function PriceBefore(prices: seq<Point>, basePrice: real, i: nat): real
    requires i <= |prices|
  {
    if i == 0 then basePrice else prices[i - 1].value
  }

  /** `generateMockHistory`: a random walk from `basePrice` sampled on a
      regular grid that ends one interval before `now`. */
  method GenerateMockHistory(days: int, basePrice: real, now: int, draws: seq<MockDraw>) returns (h: History)
    requires |draws| == PointCount(days)
    requires forall i | 0 <= i < |draws| :: ValidMockDraw(draws[i])
    ensures |h.prices| == PointCount(days) && |h.volumes| == PointCount(days) && |h.marketCaps| == PointCount(days)
    ensures forall i | 0 <= i < |h.prices| ::
      && h.prices[i].time == now - (PointCount(days) - i) * Interval(days)
      && h.volumes[i].time == h.prices[i].time
      && h.marketCaps[i].time == h.prices[i].time
    ensures forall i | 0 < i < |h.prices| :: h.prices[i].time == h.prices[i - 1].time + Interval(days)
    ensures h.prices[|h.prices| - 1].time == now - Interval(days)
    ensures basePrice > 0.0 ==> forall i | 0 <= i < |h.prices| ::
      && h.prices[i].value > 0.0
      && 0.98 * PriceBefore(h.prices, basePrice, i) <= h.prices[i].value < 1.02 * PriceBefore(h.prices, basePrice, i)
  {
    var n := PointCount(days);
    var interval := Interval(days);
    var currentPrice := basePrice;
    var currentVolume := basePrice * 10000000.0;
    var currentMarketCap := basePrice * 1000000000.0;
    var prices: seq<Point> := [];
    var volumes: seq<Point> := [];
    var marketCaps: seq<Point> := [];
    var i := 0;
    while i < n
      invariant 0 <= i <= n
      invariant |prices| == i && |volumes| == i && |marketCaps| == i
      invariant currentPrice == PriceBefore(prices, basePrice, i)
      invariant forall j | 0 <= j < i ::
        && prices[j].time == now - (n - j) * interval
        && volumes[j].time == prices[j].time
        && marketCaps[j].time == prices[j].time
      invariant basePrice > 0.0 ==> currentPrice > 0.0
      invariant basePrice > 0.0 ==> forall j | 0 <= j < i ::
        && prices[j].value > 0.0
        && 0.98 * PriceBefore(prices, basePrice, j) <= prices[j].value < 1.02 * PriceBefore(prices, basePrice, j)
    {
      var timestamp := now - (n - i) * interval;
      var d := draws[i];
      currentPrice := SimulatePriceUpdate(currentPrice, d.price);
      currentVolume := currentVolume * (1.0 + (d.volume * 6.0 - 3.0) / 100.0);
      currentMarketCap := currentPrice * 1000000000.0 * (1.0 + (d.marketCap * 2.0 - 1.0) / 100.0);
      prices := prices + [Point(timestamp, currentPrice)];
      volumes := volumes + [Point(timestamp, currentVolume)];
      marketCaps := marketCaps + [Point(timestamp, currentMarketCap)];
      i := i + 1;
    }
    h := History(prices, marketCaps, volumes);
  }

  // ---------------------------------------------------------------------
  // Fallback data
  // ---------------------------------------------------------------------

  /** The fallback table of base prices. */
  function BasePrice(id: string): (p: real)
    requires id in CoinIds
    ensures p > 0.0
    ensures id == "bitcoin" ==> p == 36000.0
    ensures id == "ethereum" ==> p == 2400.0
    ensures id == "solana" ==> p == 145.0
  {
    if id == "bitcoin" then 36000.0 else if id == "ethereum" then 2400.0 else 145.0
  }

  /** `id.charAt(0).toUpperCase() + id.slice(1)`. */
  function Capitalize(id: string): (name: string)
    ensures |name| == |id|
    ensures id != [] ==> name[0] == UpperChar(id[0]) && name[1..] == id[1..]
  {
    if id == [] then [] else [UpperChar(id[0])] + id[1..]
  }

  /** `id.substring(0, 3).toUpperCase()`. */
  function Symbol(id: string): (sym: string)
    ensures |sym| == if |id| < 3 then |id| else 3
    ensures forall i | 0 <= i < |sym| :: sym[i] == UpperChar(id[i])
  {
    ToUpper(if |id| < 3 then id else id[..3])
  }

  /** The simulated coin used when the markets request fails; `r` is the
      draw for its 24-hour change. */
  function FallbackCoin(id: string, r: real): (c: Coin)
    requires id in CoinIds
    ensures c.id == id && c.name == Capitalize(id) && c.symbol == Symbol(id)
    ensures c.market.price == BasePrice(id) > 0.0
    ensures c.market.marketCap == c.market.price * 1000000000.0
    ensures c.market.volume == c.market.price * 10000000.0
    ensures c.market.circulatingSupply == c.market.price * 1000000.0
    ensures IsDraw(r) ==> -5.0 <= c.market.change24h < 5.0
  {
    var base := BasePrice(id);
    Coin(id, Capitalize(id), Symbol(id),
         "https://cryptologos.cc/logos/" + id + "-" + id + "-logo.png",
         MarketData(base, base * 1000000000.0, base * 10000000.0, base * 1000000.0, r * 10.0 - 5.0))
  }

  /** The fallback coin map: one simulated coin per tracked id. */
  function FallbackCoins(draws: map<string, real>): (coins: map<string, Coin>)
    requires forall id | id in CoinIds :: id in draws
    ensures coins.Keys == {"bitcoin", "ethereum", "solana"}
    ensures forall id | id in coins :: coins[id].id == id && coins[id] == FallbackCoin(id, draws[id])
    ensures PositivePrices(coins)
  {
    var coins := map id | id in CoinIds :: FallbackCoin(id, draws[id]);
    CoinIdSet();
    assert coins.Keys == set id | id in CoinIds;
    coins
  }

  /** The tracked ids, as a set. */
  lemma CoinIdSet()
    ensures (set id | id in CoinIds) == {"bitcoin", "ethereum", "solana"}
  {
  }

  /** The display names and symbols the fallback gives the tracked coins. */
  lemma FallbackNames(r: real)
    ensures FallbackCoin("bitcoin", r).name == "Bitcoin" && FallbackCoin("bitcoin", r).symbol == "BIT"
    ensures FallbackCoin("ethereum", r).name == "Ethereum" && FallbackCoin("ethereum", r).symbol == "ETH"
    ensures FallbackCoin("solana", r).name == "Solana" && FallbackCoin("solana", r).symbol == "SOL"
    ensures FallbackCoin("bitcoin", r).market.marketCap == 36000000000000.0
  {
    assert "bitcoin"[..3] == "bit";
    assert "ethereum"[..3] == "eth";
    assert "solana"[..3] == "sol";
  }

  /** The base price of the mock history when the history request fails:
      the coin's known price unless it is missing or zero, else a per-id default. */
  function HistoryBasePrice(coins: map<string, Coin>, id: string): (p: real)
    ensures p != 0.0
    ensures id in coins && coins[id].market.price != 0.0 ==> p == coins[id].market.price
    ensures (id !in coins || coins[id].market.price == 0.0) ==>
      p == (if id == "bitcoin" then 36000.0 else if id == "ethereum" then 2400.0 else 145.0)
  {
    if id in coins && coins[id].market.price != 0.0 then coins[id].market.price
    else if id == "bitcoin" then 36000.0
    else if id == "ethereum" then 2400.0
    else 145.0
  }

  // ---------------------------------------------------------------------
  // The markets response
  // ---------------------------------------------------------------------

  /** One row of the markets response; `change` is absent when the upstream sends null. */
  datatype MarketRow = MarketRow(
    id: string, name: string, symbol: string, image: string,
    price: real, marketCap: real, volume: real, circulatingSupply: real,
    change: Option<real>)

  function CoinOfRow(row: MarketRow): (c: Coin)
    ensures c.id == row.id && c.symbol == ToUpper(row.symbol)
    ensures c.name == row.name && c.image == row.image
    ensures c.market == MarketData(row.price, row.marketCap, row.volume, row.circulatingSupply, c.market.change24h)
    ensures c.market.change24h == (if row.change.Some? then row.change.value else 0.0)
  {
    Coin(row.id, row.name, ToUpper(row.symbol), row.image,
         MarketData(row.price, row.marketCap, row.volume, row.circulatingSupply,
                    if row.change.Some? then row.change.value else 0.0))
  }

  /** The coin map built from the rows in order; a later row with the same id overwrites. */
  function CoinsFromMarkets(rows: seq<MarketRow>): (coins: map<string, Coin>)
    ensures coins.Keys == set i | 0 <= i < |rows| :: rows[i].id
    ensures forall id | id in coins :: coins[id].id == id
  {
    if rows == [] then map[]
    else
      var last := rows[|rows| - 1];
      var prefix := rows[..|rows| - 1];
      assert forall i | 0 <= i < |prefix| :: prefix[i] == rows[i];
      CoinsFromMarkets(prefix)[last.id := CoinOfRow(last)]
  }

  /** The row that survives for an id is the last row carrying it. */
  lemma {:induction false} LastRowWins(rows: seq<MarketRow>, i: nat)
    requires i < |rows|
    requires forall j | i < j < |rows| :: rows[j].id != rows[i].id
    ensures rows[i].id in CoinsFromMarkets(rows)
    ensures CoinsFromMarkets(rows)[rows[i].id] == CoinOfRow(rows[i])
  {
    if i < |rows| - 1 {
      var prefix := rows[..|rows| - 1];
      LastRowWins(prefix, i);
    }
  }
}

=== FILE: favorites_slice.dfy ===
/** The favourites part of the store: two lists, one of cities and one of
    cryptocurrencies, with set-like insertion and removal. */
module FavoritesSlice {
  import opened Common

  datatype Favorites = Favorites(cities: seq<string>, cryptos: seq<string>)

  const InitialState: Favorites := Favorites([], [])

  /** The lower-case names that classify an item as a city. */
  const KnownCities: seq<string> := ["new york", "london", "tokyo"]

  /** An item is a city when its lower-case form is one of the known cities. */
  predicate IsCity(item: string) {
    ToLower(item) in KnownCities
  }

  /** The item is in one of the two lists. */
  predicate Contains(f: Favorites, item: string) {
    item in f.cities || item in f.cryptos
  }

  /** No string occurs twice across the two lists together. */
  predicate NoDuplicates(f: Favorites) {
    Distinct(f.cities + f.cryptos)
  }

  /** `addToFavorites`. */
  function AddToFavorites(f: Favorites, item: string): (r: Favorites)
    ensures Contains(f, item) ==> r == f
    ensures !Contains(f, item) && IsCity(item) ==> r == Favorites(f.cities + [item], f.cryptos)
    ensures !Contains(f, item) && !IsCity(item) ==> r == Favorites(f.cities, f.cryptos + [item])
    ensures Contains(r, item)
  {
    if item in f.cities || item in f.cryptos then f
    else if ToLower(item) in KnownCities then f.(cities := f.cities + [item])
    else f.(cryptos := f.cryptos + [item])
  }

  /** Every list in the original order, with `item` dropped. */
  function Without(s: seq<string>, item: string): (r: seq<string>)
    ensures item !in r
    ensures forall x | x in r :: x in s
    ensures forall x | x in s && x != item :: x in r
    ensures |r| <= |s|
  {
    if s == [] then []
    else if s[0] == item then Without(s[1..], item)
    else [s[0]] + Without(s[1..], item)
  }

  /** `removeFromFavorites`: the item is dropped from both lists. */
  function RemoveFromFavorites(f: Favorites, item: string): (r: Favorites)
    ensures !Contains(r, item)
    ensures forall x | x != item :: Contains(r, x) <==> Contains(f, x)
  {
    Favorites(Without(f.cities, item), Without(f.cryptos, item))
  }

  /** `setFavorites`: both lists replaced as given, duplicates and all. */
  function SetFavorites(f: Favorites, payload: Favorites): (r: Favorites)
    ensures r.cities == payload.cities && r.cryptos == payload.cryptos
  {
    payload
  }

  /** `s` keeps a subset of `t`'s elements in `t`'s order. */
  predicate IsSubsequence(s: seq<string>, t: seq<string>)
    decreases |t|
  {
    if s == [] then true
    else if t == [] then false
    else if s[0] == t[0] then IsSubsequence(s[1..], t[1..])
    else IsSubsequence(s, t[1..])
  }

  /** How often `x` occurs in `s`. */
  function Count(s: seq<string>, x: string): nat {
    if s == [] then 0 else (if s[0] == x then 1 else 0) + Count(s[1..], x)
  }

  /** The first favourite lands in the list its classification picks, and
      the starting lists hold no duplicates. */
  lemma FirstFavorite(item: string)
    ensures NoDuplicates(InitialState)
    ensures AddToFavorites(InitialState, item) == if IsCity(item) then Favorites([item], []) else Favorites([], [item])
  {
  }

  /** Removal keeps every other element, each as often as before and in the same order. */
  lemma {:induction false} WithoutKeepsOthers(s: seq<string>, item: string)
    ensures IsSubsequence(Without(s, item), s)
    ensures forall x | x != item :: Count(Without(s, item), x) == Count(s, x)
  {
    if s != [] {
      WithoutKeepsOthers(s[1..], item);
      if s[0] != item {
        var w := Without(s[1..], item);
        assert ([s[0]] + w)[1..] == w;
      }
    }
  }

  /** Removing an item that is not there changes nothing. */
  lemma {:induction false} WithoutAbsent(s: seq<string>, item: string)
    requires item !in s
    ensures Without(s, item) == s
  {
    if s != [] {
      assert item !in s[1..];
      WithoutAbsent(s[1..], item);
      assert s == [s[0]] + s[1..];
    }
  }

  /** Appending then removing a fresh item gives back the list. */
  lemma {:induction false} WithoutAppended(s: seq<string>, item: string)
    requires item !in s
    ensures Without(s + [item], item) == s
  {
    if s == [] {
      assert Without([item][1..], item) == [];
    } else {
      assert (s + [item])[1..] == s[1..] + [item];
      assert item !in s[1..];
      WithoutAppended(s[1..], item);
      assert s == [s[0]] + s[1..];
    }
  }

  /** Removal from both lists keeps every other entry, in order and with its multiplicity. */
  lemma RemovePreservesOrder(f: Favorites, item: string)
    ensures IsSubsequence(RemoveFromFavorites(f, item).cities, f.cities)
    ensures IsSubsequence(RemoveFromFavorites(f, item).cryptos, f.cryptos)
    ensures forall x | x != item ::
      && Count(RemoveFromFavorites(f, item).cities, x) == Count(f.cities, x)
      && Count(RemoveFromFavorites(f, item).cryptos, x) == Count(f.cryptos, x)
  {
    WithoutKeepsOthers(f.cities, item);
    WithoutKeepsOthers(f.cryptos, item);
  }

  /** Removal is idempotent, and removing an absent item is a no-op. */
  lemma RemoveIdempotent(f: Favorites, item: string)
    ensures RemoveFromFavorites(RemoveFromFavorites(f, item), item) == RemoveFromFavorites(f, item)
    ensures !Contains(f, item) ==> RemoveFromFavorites(f, item) == f
  {
    var r := RemoveFromFavorites(f, item);
    WithoutAbsent(r.cities, item);
    WithoutAbsent(r.cryptos, item);
    if !Contains(f, item) {
      WithoutAbsent(f.cities, item);
      WithoutAbsent(f.cryptos, item);
    }
  }

  /** Adding a fresh item and removing it again restores the favourites. */
  lemma AddThenRemove(f: Favorites, item: string)
    requires !Contains(f, item)
    ensures RemoveFromFavorites(AddToFavorites(f, item), item) == f
  {
    if IsCity(item) {
      WithoutAppended(f.cities, item);
      WithoutAbsent(f.cryptos, item);
    } else {
      WithoutAbsent(f.cities, item);
      WithoutAppended(f.cryptos, item);
    }
  }

  /** Adding keeps the two lists free of duplicates. */
  lemma AddKeepsNoDuplicates(f: Favorites, item: string)
    requires NoDuplicates(f)
    ensures NoDuplicates(AddToFavorites(f, item))
  {
    var r := AddToFavorites(f, item);
    if !Contains(f, item) {
      var all := f.cities + f.cryptos;
      assert item !in all;
      if IsCity(item) {
        assert r.cities + r.cryptos == f.cities + [item] + f.cryptos;
        forall i, j | 0 <= i < j < |r.cities + r.cryptos|
          ensures (r.cities + r.cryptos)[i] != (r.cities + r.cryptos)[j]
        {
          var n := |f.cities|;
          var rs := r.cities + r.cryptos;
          if i == n {
            assert rs[j] == all[j - 1];
          } else if j == n {
            assert rs[i] == all[i];
          } else {
            var i' := if i < n then i else i - 1;
            var j' := if j < n then j else j - 1;
            assert rs[i] == all[i'] && rs[j] == all[j'];
          }
        }
      } else {
        assert r.cities + r.cryptos == all + [item];
      }
    }
  }

  /** The classification of a new item, both ways. */
  lemma AddClassifies(f: Favorites, item: string)
    requires !Contains(f, item)
    ensures item in AddToFavorites(f, item).cities <==> ToLower(item) in ["new york", "london", "tokyo"]
    ensures item in AddToFavorites(f, item).cryptos <==> !(ToLower(item) in ["new york", "london", "tokyo"])
  {
  }

  /** Letter case does not matter for classification: "London" and "LONDON" are cities, "Bitcoin" is not. */
  lemma ClassificationIgnoresCase()
    ensures IsCity("London") && IsCity("LONDON") && IsCity("New York")
    ensures !IsCity("Bitcoin")
  {
    assert ToLower("London") == "london";
    assert ToLower("LONDON") == "london";
    assert ToLower("New York") == "new york";
    assert ToLower("Bitcoin") != "new york" && ToLower("Bitcoin") != "london" && ToLower("Bitcoin") != "tokyo" by {
      assert |ToLower("Bitcoin")| == 7;
      assert ToLower("Bitcoin")[0] == 'b';
    }
  }

  /** `setFavorites` does not deduplicate: the payload may contain the same item twice. */
  lemma SetKeepsDuplicates(f: Favorites)
    ensures !NoDuplicates(SetFavorites(f, Favorites(["london"], ["london"])))
  {
    var r := SetFavorites(f, Favorites(["london"], ["london"]));
    assert (r.cities + r.cryptos)[0] == (r.cities + r.cryptos)[1];
  }
}

=== FILE: weather_slice.dfy ===
/** The weather part of the store: per-city readings, forecasts attached to
    known cities, the loading/error flags and the record of the last weather
    alert per city. */
module WeatherSlice {
  import opened Common

  /** One entry of a reading's `weather` array; `id` is the optional condition code. */
  datatype Condition = Condition(description: string, icon: string, main: string, id: Option<int>)

  /** The `main` block of a reading (degrees Celsius). */
  datatype Reading = Reading(temp: real, feelsLike: real, tempMin: real, tempMax: real, pressure: real, humidity: real)

  datatype ForecastEntry = ForecastEntry(time: int, temp: real, humidity: real, conditions: seq<Condition>)

  datatype Forecast = Forecast(list: seq<ForecastEntry>)

  /** A city's current conditions. `main` and `weather` are optional because
      the alert engine treats a city lacking either as not yet available. */
  datatype WeatherData = WeatherData(
    name: string,
    time: int,
    main: Option<Reading>,
    weather: Option<seq<Condition>>,
    forecast: Option<Forecast>)

  /** The last weather alert recorded for a city: its type and time. */
  datatype AlertMark = AlertMark(kind: string, time: int)

  datatype WeatherState = WeatherState(
    cities: map<string, WeatherData>,
    loading: bool,
    error: Option<string>,
    lastAlerts: map<string, AlertMark>)

  const InitialState: WeatherState := WeatherState(map[], false, None, map[])

  /** The two requests whose failure the slice reports. */
  datatype Request = CurrentWeather | ForecastData

  function DefaultError(req: Request): string {
    match req
    case CurrentWeather => "Failed to fetch weather data"
    case ForecastData => "Failed to fetch forecast data"
  }

  /** `triggerWeatherAlert`: the record is keyed by city alone, so it
      replaces whatever alert of whatever type the city had before. */
  function TriggerWeatherAlert(state: WeatherState, city: string, kind: string, now: int): (s: WeatherState)
    ensures s.lastAlerts.Keys == state.lastAlerts.Keys + {city}
    ensures s.lastAlerts[city] == AlertMark(kind, now)
    ensures forall other | other in state.lastAlerts && other != city :: s.lastAlerts[other] == state.lastAlerts[other]
    ensures s.cities == state.cities && s.loading == state.loading && s.error == state.error
  {
    state.(lastAlerts := state.lastAlerts[city := AlertMark(kind, now)])
  }

  /** A second alert for the same city hides the first, whatever the types. */
  lemma LaterAlertOverwrites(state: WeatherState, city: string, k1: string, k2: string, t1: int, t2: int)
    ensures TriggerWeatherAlert(TriggerWeatherAlert(state, city, k1, t1), city, k2, t2).lastAlerts
         == TriggerWeatherAlert(state, city, k2, t2).lastAlerts
  {
  }

  /** The `pending` case of both requests. */
  function FetchPending(state: WeatherState): (s: WeatherState)
    ensures s.loading && s.error == None
    ensures s.cities == state.cities && s.lastAlerts == state.lastAlerts
  {
    state.(loading := true, error := None)
  }

  /** The `rejected` cases: the error message, or the request's default when it is empty. */
  function FetchRejected(state: WeatherState, req: Request, message: Option<string>): (s: WeatherState)
    ensures !s.loading && s.error.Some?
    ensures message.Some? && message.value != [] ==> s.error == Some(message.value)
    ensures (message.None? || message.value == []) ==> s.error == Some(DefaultError(req))
    ensures s.cities == state.cities && s.lastAlerts == state.lastAlerts
  {
    state.(loading := false, error := Some(MessageOr(message, DefaultError(req))))
  }

  /** `fetchWeatherData.fulfilled`: the city's reading is written as received. */
  function FetchWeatherFulfilled(state: WeatherState, city: string, data: WeatherData): (s: WeatherState)
    ensures s.cities.Keys == state.cities.Keys + {city} && s.cities[city] == data
    ensures forall other | other in state.cities && other != city :: s.cities[other] == state.cities[other]
    ensures !s.loading && s.error == None
    ensures s.lastAlerts == state.lastAlerts
  {
    state.(loading := false, cities := state.cities[city := data], error := None)
  }

  /** `fetchForecast.fulfilled`: the forecast is attached only to a city that
      is already present; an unknown city leaves the map as it is. */
  function FetchForecastFulfilled(state: WeatherState, city: string, forecast: Forecast): (s: WeatherState)
    ensures city !in state.cities ==> s.cities == state.cities
    ensures s.cities.Keys == state.cities.Keys
    ensures city in state.cities ==> s.cities[city] == state.cities[city].(forecast := Some(forecast))
    ensures forall other | other in state.cities && other != city :: s.cities[other] == state.cities[other]
    ensures !s.loading && s.error == None
    ensures s.lastAlerts == state.lastAlerts
  {
    var cities := if city in state.cities
      then state.cities[city := state.cities[city].(forecast := Some(forecast))]
      else state.cities;
    state.(loading := false, cities := cities, error := None)
  }

  /** A forecast never creates a city: it survives only on top of a reading,
      and the next reading for that city replaces it with the reading's own. */
  lemma ForecastNeedsReading(state: WeatherState, city: string, forecast: Forecast, data: WeatherData)
    ensures city in FetchForecastFulfilled(state, city, forecast).cities <==> city in state.cities
    ensures FetchWeatherFulfilled(FetchForecastFulfilled(state, city, forecast), city, data).cities[city] == data
  {
  }
}
